=== FILE: README.md ===
# DjayNowplaying detection pipeline, in Dafny

DjayNowplaying watches the SQLite database of the djay DJ application and
republishes the track that is playing. This project models the detection
pipeline of `DjayNowplaying.py` as pure functions and proves properties of it.
The pipeline has five parts:

- **Blob decoding.** `PlaybackMonitor.parse_blob` and
  `ArtworkManager.parse_blob_for_path` pull printable tokens out of an opaque
  binary record. They recover fields by the "value precedes key" rule.
  The location decoder also turns a `file:///` URI into a Windows path.
- **Duplicate suppression.** `PlaybackMonitor.is_duplicate` keeps a
  five-second window of recently admitted `"artist - title"` strings.
- **The polling tick.** This is the body of the loop in
  `PlaybackMonitor.run`. It diffs snapshots by `rowid`, decodes the new rows,
  filters them through the window and hides the `explorer` source. It then
  sets `current` and prepends to a history capped at ten.
- **Artwork lookup.** `ArtworkManager.load_paths` and `extract_artwork` key a
  path cache by `(strip(artist), strip(title))`. On a miss they rebuild the
  cache once and retry.
- **Publishing.** The `server_state` dictionary becomes `Publisher.Published`.

Modules, one file each:

| module | file | models |
|---|---|---|
| `Outcomes` | outcomes.dfy | `Option`, and `Read`, a database read that can fail |
| `Text` | text.dfy | `str.strip`, `str.lower`, `str.startswith`, `str.replace` on ASCII text |
| `TokenScan` | token_scan.dfy | the `re.findall` token scan with decode, strip and length filter |
| `PercentCoding` | percent.dfy | `urllib.parse.unquote` for ASCII escapes, and its inverse |
| `BlobDecoder` | blob_decoder.dfy | `parse_blob`, `parse_blob_for_path` |
| `Dedup` | dedup.dfy | `is_duplicate` |
| `PathIndex` | path_index.dfy | `load_paths`, the key and retry logic of `extract_artwork` |
| `Snapshots` | snapshots.dfy | `get_snapshot`'s dictionary and the `rowid` diff |
| `Publisher` | publisher.dfy | `server_state`: source policy, current event, capped history |
| `Monitor` | monitor.dfy | thread start and one polling tick of `run` |

The outside world enters as arguments:

- The database reads are `Read` values: either `Failed` or the fetched rows.
- The clock is an integer count of milliseconds, plus an opaque `HH:MM:SS`
  string.
- File existence and embedded artwork are the two sets of a `PathIndex.Disk`.
- The presence of the tag library is a boolean.

Behaviours of the code that the model keeps, and that a reader might not
expect:

- `load_paths` writes into the existing cache and never clears it, so a
  rebuild adds and overwrites entries but removes none.
  `PathIndex.FileKeepsOthers` proves that entries no row mentions survive.
- When a poll comes back empty, the loop `continue`s before
  `self.last_snapshot = current_snapshot`, so the previous baseline is kept.
- A missing source is the string `"Unknown"`, not an absent value. The
  `explorer` test is made on that string.
- Tokens of one character are dropped before the field loop runs. A key can
  then sit directly after another key and be read as a value. With artist
  `"A"` and title `"B"` laid out value-then-key, the loop sees `artist`,
  `title`, `Spotify`, `originSourceID`. It takes the word `artist` as the
  title and finds no artist. `parse_blob` then returns a track titled
  `artist` by `"Unknown"`, and that track is published.
  `BlobDecoder.OneCharFieldsMisread` and `BlobDecoder.OneCharFieldsPublished`
  prove this.
- The track decoder's character class lacks `\ / : % +`. Only the location
  decoder adds them. Filing and lookup normalise the key the same way, but
  the names they normalise come from these two decoders. A name holding one
  of those characters is split by the track decoder. The artist `AC/DC`
  before its key is read as `DC` for playback and as `AC/DC` for the
  location. The lookup then misses the filed key, so `extract_artwork` never
  finds artwork for such a track. Unless some other row happens to file the
  shortened key, every accepted detection of it also rebuilds the path
  cache. `PathIndex.SlashSplitsKey` proves the split on the token lists for
  the artist `AB/CD`.

## Model

| member | source | states |
|---|---|---|
| Text.Strip | DjayNowplaying.py:158 | the stripped text has no whitespace at either end and is no longer than the input |
| Text.StripRemovesOnlyEdges | DjayNowplaying.py:158 | strip cuts off only a whitespace prefix and a whitespace suffix; what remains is a contiguous piece of the input |
| Text.StripKeepsTrimmed | DjayNowplaying.py:143 | stripping text that has no edge whitespace changes nothing |
| TokenScan.RunEnd | DjayNowplaying.py:154 | a run of class bytes extends exactly up to the first byte outside the class |
| TokenScan.MatchText | DjayNowplaying.py:157-158 | a decoded, stripped match has no edge whitespace and holds only class characters |
| TokenScan.MatchesFrom | DjayNowplaying.py:154 | the matches from a position are maximal runs of the class, in strictly increasing, non-overlapping buffer order |
| TokenScan.MatchesFromComplete | DjayNowplaying.py:154 | every maximal run after the start position is among the matches |
| TokenScan.MatchesAreMaximalRuns | DjayNowplaying.py:283 | a span is a match of `[class]+` exactly when it is a maximal run of class bytes |
| TokenScan.KeepLong | DjayNowplaying.py:159 | the kept tokens are exactly those whose text is longer than one character |
| TokenScan.KeepLongIncreasing | DjayNowplaying.py:284-288 | filtering keeps the tokens in buffer order |
| TokenScan.Scan | DjayNowplaying.py:283-288 | the kept tokens are in buffer order and are exactly the maximal runs whose stripped text is longer than one character |
| TokenScan.Tokens | DjayNowplaying.py:154-160 | every token is longer than one character, has no edge whitespace and holds only class characters; tokens follow the runs in buffer order |
| PercentCoding.Unquote | DjayNowplaying.py:177 | text without `%` decodes to itself; decoding never lengthens |
| PercentCoding.UnquoteKeepsPlainPrefix | DjayNowplaying.py:177-179 | a prefix without `%` passes through decoding unchanged |
| PercentCoding.UnquoteQuote | DjayNowplaying.py:177 | decoding undoes percent-encoding on ASCII text |
| BlobDecoder.LastKeyExists | DjayNowplaying.py:296-302 | a key that occurs past index 0 has a last such occurrence |
| BlobDecoder.ValueBeforeKeyCases | DjayNowplaying.py:296-302 | the rule yields nothing exactly when the key does not occur past index 0, and otherwise the token before its last occurrence |
| BlobDecoder.CaptureFollowsRule | DjayNowplaying.py:296-302 | after any prefix of tokens the loop's field is the rule's value: key at index 0 ignored, last occurrence wins |
| BlobDecoder.StepKeepsOtherField | DjayNowplaying.py:167-173 | a token that is not the key leaves the key's field alone |
| BlobDecoder.CaptureAllFollowsRule | DjayNowplaying.py:296-302 | the loop's final field for title, artist and source is the rule's value |
| BlobDecoder.RuleExample | DjayNowplaying.py:296-302 | on a concrete token list: a key in first place is ignored, a repeated key keeps the value before its last occurrence, the source comes from `originSourceID` |
| BlobDecoder.OneCharFieldsMisread | DjayNowplaying.py:288-302 | with one-character fields dropped, the key `artist` directly before the key `title` is taken as the title, and no artist is found |
| BlobDecoder.OneCharFieldsRule | DjayNowplaying.py:296-302 | on that list, the rule yields the title `artist`, no artist and the source `Spotify` |
| BlobDecoder.OneCharFieldsPublished | DjayNowplaying.py:281-305 | a blob whose tokens are that list is not skipped; it decodes to a track titled `artist` by `"Unknown"` |
| BlobDecoder.CaptureKeepsLastUri | DjayNowplaying.py:172-173 | the location loop captures a URI exactly when some token starts with `file:///`, and captures the last such token |
| BlobDecoder.ParseBlob | DjayNowplaying.py:281-305 | fields are the rule's values, `"Unknown"` when absent; the result is absent exactly when artist and title are both `"Unknown"` |
| BlobDecoder.FilePath | DjayNowplaying.py:177-180 | for a `file:///` URI the path is the percent-decoded remainder after the scheme with `/` turned into `\`; no path holds `/` |
| BlobDecoder.UnquoteFileUri | DjayNowplaying.py:177-179 | percent-decoding keeps the `file:///` scheme, so cutting 8 characters after decoding removes exactly the scheme |
| BlobDecoder.RuleValueIsToken | DjayNowplaying.py:169-171 | every recovered value is one of the tokens |
| BlobDecoder.LocationCapture | DjayNowplaying.py:167-173 | the location loop captures the rule's artist and title and the last `file:///` token |
| BlobDecoder.ParseBlobForPath | DjayNowplaying.py:151-184 | a location exists exactly when the rule finds artist and title and some token starts with `file:///`; the path comes from the last such token and holds no `/` |
| BlobDecoder.LastUriExists | DjayNowplaying.py:172-173 | when some token starts with `file:///`, there is a last one |
| Dedup.Purge | DjayNowplaying.py:327 | survivors are exactly the entries younger than five seconds |
| Dedup.PurgeAppend | DjayNowplaying.py:327 | purging works entry by entry and keeps order: the survivors of a concatenation are the survivors of each part in turn |
| Dedup.Admit | DjayNowplaying.py:325-331 | a duplicate is reported exactly when a survivor carries the same string; then nothing is appended and no age is reset; otherwise exactly `(track, now)` is appended after the survivors; every retained entry is inside the window |
| Dedup.PurgeKeepsDistinct | DjayNowplaying.py:327 | purging keeps the strings distinct |
| Dedup.AdmitKeepsDistinct | DjayNowplaying.py:325-331 | the window never holds the same string twice |
| Dedup.SuppressedWithinWindow | DjayNowplaying.py:325-331 | after admitting a track at `t0`, the same track at `t1` is a duplicate exactly when `t1 - t0` is under five seconds |
| Dedup.WindowExample | DjayNowplaying.py:325-331 | admitted at 0 s, suppressed at 2 s, and admitted again at 6 s on the window the suppressed call left, so a suppressed hit does not renew the entry |
| PathIndex.IdentityOf | DjayNowplaying.py:143 | both parts of the key have no edge whitespace; filing (`PathIndex.Entry`) and lookup (`PathIndex.ExtractArtwork`) normalise the key the same way |
| PathIndex.IdentityOfIdempotent | DjayNowplaying.py:190 | normalising a key twice changes nothing |
| PathIndex.SlashSplitsKey | DjayNowplaying.py:154 | `/` is in the location class but not the track class, so an artist `AB/CD` is read as `CD` for playback and as `AB/CD` for the location, and the two cache keys differ |
| PathIndex.Entry | DjayNowplaying.py:139-144 | a row contributes exactly when it parses as a location; it files that location's path under the stripped artist and title |
| PathIndex.File | DjayNowplaying.py:137-146 | the count is exactly the number of rows that parse, and zero exactly when none does; existing keys are never evicted |
| PathIndex.LoadPaths | DjayNowplaying.py:129-149 | a failed read leaves the cache unchanged and counts zero; otherwise the rows are filed in order |
| PathIndex.Build | DjayNowplaying.py:124-127 | the initial cache is empty when the read fails; otherwise it is the rows filed into an empty cache, and holds exactly the keys some row files a path under |
| PathIndex.FileLastWins | DjayNowplaying.py:138-144 | the last row for a key determines the cached path |
| PathIndex.FileKeepsOthers | DjayNowplaying.py:138-144 | a key no row mentions keeps its old entry, or stays absent |
| PathIndex.FileKeys | DjayNowplaying.py:138-144 | after a load, the keys are the old keys together with the keys some row files a path under |
| PathIndex.ExtractArtwork | DjayNowplaying.py:186-198 | without the tag library: false, no cache change; the cache is rebuilt at most once, exactly when the cached path is missing, empty or gone; found exactly when the path finally looked up exists and has artwork |
| PathIndex.MissThenRebuild | DjayNowplaying.py:193-198 | a miss that the rebuild can fix is fixed by one rebuild |
| PathIndex.MissStaysMissing | DjayNowplaying.py:196-198 | when no location row files the key and the cache has nothing usable for it, the result is false |
| Snapshots.Insert | DjayNowplaying.py:320 | dictionary assignment: a new `rowid` is appended to the order; an existing one keeps its place and takes the new value |
| Snapshots.FromRows | DjayNowplaying.py:309-321 | the snapshot is a well-formed dictionary with no more keys than rows |
| Snapshots.FromRowsContents | DjayNowplaying.py:315-320 | the snapshot holds exactly the `rowid`s of the watched collection's rows, each with its last row's values |
| Snapshots.NothingSelected | DjayNowplaying.py:315-320 | a fetch with no watched row gives the empty snapshot |
| Snapshots.Unseen | DjayNowplaying.py:349-350 | the unseen keys are exactly the keys not held by the previous snapshot |
| Snapshots.UnseenAppend | DjayNowplaying.py:349-350 | the diff keeps snapshot order |
| Snapshots.UnseenAllSeen | DjayNowplaying.py:349-350 | nothing is new when every key was seen |
| Snapshots.NewRows | DjayNowplaying.py:349-350 | the new rows are exactly the current `rowid`s the previous snapshot lacks |
| Snapshots.NoNewRowsWhenAllKnown | DjayNowplaying.py:349-350 | diffing against a snapshot that knows every `rowid`, including itself, yields nothing |
| Publisher.DisplaySource | DjayNowplaying.py:360-367 | the source is hidden exactly when its lower-case form is `explorer`, and is otherwise shown verbatim |
| Publisher.ExplorerInAnyCase | DjayNowplaying.py:364 | the hidden sources are the eight-letter spellings of "explorer" in any mix of cases |
| Publisher.DisplaySourceExamples | DjayNowplaying.py:364-367 | `Explorer` and `EXPLORER` are hidden; `Spotify` and `explorer2` are shown |
| Publisher.Announce | DjayNowplaying.py:369-378 | the event is of kind playing with status `Playing`, and its source follows the display policy |
| Publisher.Publish | DjayNowplaying.py:380-385 | the event becomes current and heads the history; the rest is the previous history, minus its oldest entry once ten are held |
| Publisher.PublishKeepsConsistent | DjayNowplaying.py:380-385 | the history stays within ten, and its head is the current event |
| Publisher.PublishPrepends | DjayNowplaying.py:383-385 | one publication prepends and keeps the newest ten |
| Publisher.PublishAllHistory | DjayNowplaying.py:380-385 | after a run of publications the history is the ten most recent events, newest first |
| Publisher.PublishAllConsistent | DjayNowplaying.py:380-385 | any run of publications keeps the state consistent and leaves its last event current |
| Publisher.NewestAbsorbs | DjayNowplaying.py:384-385 | cutting the history before prepending does not change the newest ten |
| Publisher.ElevenEvents | DjayNowplaying.py:384-385 | after eleven events the first one has been dropped and exactly the last ten remain |
| Monitor.LogLineReports | DjayNowplaying.py:387 | the log line contains the clock stamp, the track string, the raw source and the artwork outcome |
| Monitor.Start | DjayNowplaying.py:273-338 | the path cache is the one the artwork manager builds from the location rows; the first snapshot is the baseline, empty when the read fails; nothing is published |
| Monitor.StartEstablishes | DjayNowplaying.py:43-54 | the start state satisfies the tick invariant |
| Monitor.HandleRow | DjayNowplaying.py:351-387 | a row adds at most one detection; without one, the published state and the cache are unchanged; with one, its event is published |
| Monitor.HandleRowAccepts | DjayNowplaying.py:352-387 | a decoded track outside the window is announced and logged with the raw source, and its string joins the window |
| Monitor.HandleRowRejects | DjayNowplaying.py:351-354 | an undecodable blob or a track inside the window publishes nothing and leaves the cache alone |
| Monitor.PublishTracksLog | DjayNowplaying.py:380-387 | the history stays the ten newest logged events |
| Monitor.HandleRowKeepsInvariant | DjayNowplaying.py:349-387 | one row keeps the invariant |
| Monitor.HandleRows | DjayNowplaying.py:349-387 | the rows extend the log by at most one detection each and never rewrite it |
| Monitor.HandleRowsKeepInvariant | DjayNowplaying.py:349-387 | handling rows keeps the invariant |
| Monitor.Tick | DjayNowplaying.py:340-389 | a failed read or an empty snapshot changes nothing, not even the baseline; otherwise the snapshot replaces the baseline; the log only grows |
| Monitor.TickKeepsInvariant | DjayNowplaying.py:340-389 | every tick keeps the history equal to the ten newest logged events, with a distinct window and a well-formed baseline |
| Monitor.TickWithoutNewRowsIsQuiet | DjayNowplaying.py:349-350 | a snapshot whose `rowid`s are all known publishes nothing, even when payloads changed |
| Monitor.FirstTickSeesBaseline | DjayNowplaying.py:337-350 | a first tick over exactly the rows present at start changes nothing |
| Monitor.StartRowsNotNew | DjayNowplaying.py:337-350 | on the first tick, whatever it reads, no `rowid` present at start is new |
| Monitor.TickHandlesNewRows | DjayNowplaying.py:349-389 | a tick with at least one new row handles the decoded new rows and adopts the snapshot |
| Monitor.NewTrackIsAnnounced | DjayNowplaying.py:349-387 | one new track outside the window becomes current with its artist, title, clock stamp and displayed source, heads the history, is logged and enters the window |
| Monitor.RepeatInOneTickAnnouncedOnce | DjayNowplaying.py:349-387 | two new rows of the same track in one tick, under the tick's single clock reading, are announced once |
| Monitor.RepeatAnnouncedOnce | DjayNowplaying.py:352-354 | the same track decoded twice at one clock reading yields one detection |
| Monitor.RepeatAcrossClocks | DjayNowplaying.py:326-331 | the same track handled at two clock readings is announced a second time exactly when the readings are five seconds or more apart |
| Monitor.RecentTrackSuppressed | DjayNowplaying.py:352-354 | a tick whose only new row is a track admitted less than five seconds earlier publishes nothing |
| Monitor.RecentRowSuppressed | DjayNowplaying.py:352-354 | the same, for a single row |
| Monitor.FirstRowsAreNew | DjayNowplaying.py:337-350 | with an empty baseline, every row of the first snapshot is new, in snapshot order |
| Snapshots.UnseenNothingSeen | DjayNowplaying.py:349-350 | against an empty previous snapshot, the diff is the whole key order |
| Monitor.FirstDetectionFromEmptyStore | DjayNowplaying.py:337-389 | from an empty store, the first decoded `Spotify` track is published as current, with its source shown, as the only history entry |

## Left out

- SQLite connections and queries are reads passed in as `Read` values. The `WHERE collection IN (...)` filter is modelled by `Snapshots.Selected`.
- The mutagen tag walk and the write of `current_cover.jpg` are left out. Whether a file has extractable artwork is the set `Disk.withArtwork`. Any failure while reading tags counts as no artwork.
- `os.path.exists` is the set `Disk.existing`.
- The HTTP handler, the tkinter GUI, configuration files and `find_available_port` are left out: they do not take part in detection.
- Threads, `time.sleep` and the races between the monitor thread and HTTP readers are left out. The model is sequential.
- The `try`/`except` around each decoder has no counterpart of its own. On a byte payload no step can fail: matches are ASCII, so decoding with `errors='ignore'` cannot raise. A `data` column that is NULL or text makes `re.findall` raise, and the decoder returns `None`. Payloads are modelled as bytes, so such a row is not represented. It behaves exactly like a blob that decodes to nothing.
- The start-up log lines and the "Error loading paths" print are left out. Only detection log lines are modelled, as `Monitor.Detection` records.
- Monitor.Tick: one `Env` serves a whole tick. The code reads the clock and the file system again for each row. The window and the artwork stamp use the tick's single millisecond time.
- Dedup.Admit: time is integer milliseconds with a 5000 ms window. The code compares float seconds against `5.0`.
- PercentCoding.Unquote: only escapes of ASCII characters are decoded. An escape of a byte at or above 0x80 is left as it is. Python would decode such escapes as UTF-8.
- Text.Strip: only ASCII whitespace is stripped. Python's `strip` also removes Unicode spaces, but every string the pipeline strips is ASCII.
- Publisher.Idle: the start-up entry has no `source` key in the code. The model gives it the absent source, `None`.
- PathIndex.ExtractArtwork: the rebuild reads the locations given by the `Env` of the tick. The cover-image write is a boolean outcome.
- The count that `load_paths` returns is kept in `PathIndex.Loaded`. Nothing in the pipeline uses it.
- Monitor.RepeatInOneTickAnnouncedOnce: assumes both rows are handled at the tick's single clock reading. The code reads `time.time()` in each `is_duplicate` call. Between the two rows lie the artwork lookup of the first, which may include a path rebuild with a one-second database timeout, the tag read and the cover write. The code announces the track once only when that gap is under five seconds. `Monitor.RepeatAcrossClocks` states the general condition.
- Monitor.RepeatAnnouncedOnce: same assumption of one clock reading for both rows. `Monitor.RepeatAcrossClocks` covers two readings.

=== FILE: blob_decoder.dfy ===
/** The two heuristic decoders of the application's opaque blobs
    (`PlaybackMonitor.parse_blob` and `ArtworkManager.parse_blob_for_path`):
    scan the blob for tokens, then recover fields by the rule that a value
    token immediately precedes its key token. */
module BlobDecoder {
  import opened Outcomes
  import opened Text
  import opened TokenScan
  import opened PercentCoding

  const TitleKey: string := "title"
  const ArtistKey: string := "artist"
  const SourceKey: string := "originSourceID"
  const FileScheme: string := "file:///"
  /** The value of a field the blob did not provide. */
  const UnknownValue: string := "Unknown"

  /** What the positional loop has picked up so far. */
  datatype Capture = Capture(title: Option<string>, artist: Option<string>,
                             source: Option<string>, uri: Option<string>)

  const NothingCaptured := Capture(None, None, None, None)

  /** One iteration of `for i, s in enumerate(decoded)`: the `if`/`elif` chain
      of the decoder for `mode`. Only the track decoder looks for the source
      key; only the location decoder looks for a `file:///` token. */
  function Step(mode: Mode, c: Capture, toks: seq<string>, i: nat): Capture
    requires i < |toks|
  {
    var s := toks[i];
    if s == TitleKey && i > 0 then c.(title := Some(toks[i - 1]))
    else if s == ArtistKey && i > 0 then c.(artist := Some(toks[i - 1]))
    else if mode == TrackMode && s == SourceKey && i > 0 then c.(source := Some(toks[i - 1]))
    else if mode == LocationMode && StartsWith(s, FileScheme) then c.(uri := Some(s))
    else c
  }

  /** The capture after the loop has visited the first `n` tokens. */
  function CaptureUpTo(mode: Mode, toks: seq<string>, n: nat): Capture
    requires n <= |toks|
  {
    if n == 0 then NothingCaptured else Step(mode, CaptureUpTo(mode, toks, n - 1), toks, n - 1)
  }

  function CaptureAll(mode: Mode, toks: seq<string>): Capture {
    CaptureUpTo(mode, toks, |toks|)
  }

  /** The keys the decoder for `mode` recognises. */
  predicate IsKeyOf(mode: Mode, key: string) {
    key == TitleKey || key == ArtistKey || (mode == TrackMode && key == SourceKey)
  }

  /** The captured field that `key` fills. */
  function Field(c: Capture, key: string): Option<string> {
    if key == TitleKey then c.title
    else if key == ArtistKey then c.artist
    else c.source
  }

  // ---- The positional rule, stated independently of the loop ----

  /** Index `i` of the first `n` tokens is the last one, other than index 0,
      that holds `key`. */
  ghost predicate IsLastKeyBelow(toks: seq<string>, key: string, i: nat, n: nat) {
    && 0 < i < n <= |toks|
    && toks[i] == key
    && forall j :: i < j < n ==> toks[j] != key
  }

  /** No index of the first `n` tokens other than index 0 holds `key`. */
  ghost predicate KeyAbsentBelow(toks: seq<string>, key: string, n: nat) {
    forall i :: 0 < i < n && i < |toks| ==> toks[i] != key
  }

  /** The value the "value precedes key" rule assigns to `key`: the token just
      before the last occurrence of `key` at a position other than 0. */
  ghost function ValueBeforeKey(toks: seq<string>, key: string): Option<string> {
    if exists i :: IsLastKeyBelow(toks, key, i, |toks|) then
      var i :| IsLastKeyBelow(toks, key, i, |toks|);
      Some(toks[i - 1])
    else None
  }

  /** The last index is unique. */
  lemma LastKeyUnique(toks: seq<string>, key: string, i: nat, j: nat, n: nat)
    requires IsLastKeyBelow(toks, key, i, n) && IsLastKeyBelow(toks, key, j, n)
    ensures i == j
  {
  }

  /** The rule finds nothing exactly when the key does not occur past index 0,
      and otherwise finds the token before its last occurrence. */
  lemma ValueBeforeKeyCases(toks: seq<string>, key: string)
    ensures ValueBeforeKey(toks, key).None? <==> KeyAbsentBelow(toks, key, |toks|)
    ensures forall i: nat :: IsLastKeyBelow(toks, key, i, |toks|) ==>
      ValueBeforeKey(toks, key) == Some(toks[i - 1])
  {
    if !KeyAbsentBelow(toks, key, |toks|) {
      LastKeyExists(toks, key, |toks|);
    }
    forall i: nat | IsLastKeyBelow(toks, key, i, |toks|)
      ensures ValueBeforeKey(toks, key) == Some(toks[i - 1])
    {
      var j :| IsLastKeyBelow(toks, key, j, |toks|);
      LastKeyUnique(toks, key, i, j, |toks|);
    }
  }

  /** When `key` occurs past index 0, it has a last such occurrence. */
  lemma {:induction false} LastKeyExists(toks: seq<string>, key: string, n: nat)
    requires n <= |toks|
    requires !KeyAbsentBelow(toks, key, n)
    ensures exists i :: IsLastKeyBelow(toks, key, i, n)
  {
    if toks[n - 1] == key && n - 1 > 0 {
      assert IsLastKeyBelow(toks, key, n - 1, n);
    } else {
      LastKeyExists(toks, key, n - 1);
      var i :| IsLastKeyBelow(toks, key, i, n - 1);
      assert IsLastKeyBelow(toks, key, i, n);
    }
  }

  /** The loop implements the rule: after `n` tokens, the field of `key` is
      empty exactly when `key` has not occurred past index 0, and otherwise
      holds the token before its last occurrence ("last occurrence wins"). */
  lemma {:induction false} CaptureFollowsRule(mode: Mode, toks: seq<string>, key: string, n: nat)
    requires n <= |toks|
    requires IsKeyOf(mode, key)
    ensures Field(CaptureUpTo(mode, toks, n), key).None? <==> KeyAbsentBelow(toks, key, n)
    ensures forall i: nat :: IsLastKeyBelow(toks, key, i, n) ==>
      Field(CaptureUpTo(mode, toks, n), key) == Some(toks[i - 1])
  {
    if n > 0 {
      CaptureFollowsRule(mode, toks, key, n - 1);
      var prev := CaptureUpTo(mode, toks, n - 1);
      var i := n - 1;
      if toks[i] == key && i > 0 {
        assert Field(CaptureUpTo(mode, toks, n), key) == Some(toks[i - 1]);
        forall j: nat | IsLastKeyBelow(toks, key, j, n) ensures j == i {
          assert IsLastKeyBelow(toks, key, i, n);
          LastKeyUnique(toks, key, i, j, n);
        }
      } else {
        StepKeepsOtherField(mode, prev, toks, i, key);
        forall j: nat | IsLastKeyBelow(toks, key, j, n) ensures IsLastKeyBelow(toks, key, j, n - 1) {
        }
      }
    }
  }

  /** A step on a token that is not `key` (or is `key` at index 0) leaves the
      field of `key` alone. */
  lemma StepKeepsOtherField(mode: Mode, c: Capture, toks: seq<string>, i: nat, key: string)
    requires i < |toks| && IsKeyOf(mode, key)
    requires !(toks[i] == key && i > 0)
    ensures Field(Step(mode, c, toks, i), key) == Field(c, key)
  {
  }

  /** The field of `key` after the whole loop is the rule's value. */
  lemma CaptureAllFollowsRule(mode: Mode, toks: seq<string>, key: string)
    requires IsKeyOf(mode, key)
    ensures Field(CaptureAll(mode, toks), key) == ValueBeforeKey(toks, key)
  {
    CaptureFollowsRule(mode, toks, key, |toks|);
    ValueBeforeKeyCases(toks, key);
    if !KeyAbsentBelow(toks, key, |toks|) {
      LastKeyExists(toks, key, |toks|);
    }
  }

  /** The rule on a concrete token list: a key in first position names
      nothing, a repeated key keeps the value before its last occurrence,
      and the source is the token before `originSourceID`. */
  lemma RuleExample()
    ensures CaptureAll(TrackMode, ["title", "Daft Punk", "artist", "Aerodynamic", "title",
                                   "One More Time", "title", "Spotify", "originSourceID"])
      == Capture(Some("One More Time"), Some("Daft Punk"), Some("Spotify"), None)
  {
    var toks := ["title", "Daft Punk", "artist", "Aerodynamic", "title",
                 "One More Time", "title", "Spotify", "originSourceID"];
    assert CaptureUpTo(TrackMode, toks, 1) == NothingCaptured;
    assert CaptureUpTo(TrackMode, toks, 2) == NothingCaptured;
    assert CaptureUpTo(TrackMode, toks, 3) == Capture(None, Some("Daft Punk"), None, None);
    assert CaptureUpTo(TrackMode, toks, 4) == Capture(None, Some("Daft Punk"), None, None);
    assert CaptureUpTo(TrackMode, toks, 5) == Capture(Some("Aerodynamic"), Some("Daft Punk"), None, None);
    assert CaptureUpTo(TrackMode, toks, 6) == Capture(Some("Aerodynamic"), Some("Daft Punk"), None, None);
    assert CaptureUpTo(TrackMode, toks, 7) == Capture(Some("One More Time"), Some("Daft Punk"), None, None);
    assert CaptureUpTo(TrackMode, toks, 8) == Capture(Some("One More Time"), Some("Daft Punk"), None, None);
  }

  /** Fields of one character are dropped before the loop runs, so a key can
      end up right after another key. With artist `"A"` and title `"B"` laid
      out value-then-key, what reaches the loop is the list below: the word
      `artist` is taken as the title, and no artist is found. */
  lemma OneCharFieldsMisread()
    ensures CaptureAll(TrackMode, ["artist", "title", "Spotify", "originSourceID"])
      == Capture(Some("artist"), None, Some("Spotify"), None)
  {
    var toks := ["artist", "title", "Spotify", "originSourceID"];
    assert CaptureUpTo(TrackMode, toks, 1) == NothingCaptured;
    assert CaptureUpTo(TrackMode, toks, 2) == Capture(Some("artist"), None, None, None);
    assert CaptureUpTo(TrackMode, toks, 3) == Capture(Some("artist"), None, None, None);
  }

  /** What the rule recovers from that list. */
  lemma OneCharFieldsRule()
    ensures var toks := ["artist", "title", "Spotify", "originSourceID"];
      && ValueBeforeKey(toks, TitleKey) == Some("artist")
      && ValueBeforeKey(toks, ArtistKey) == None
      && ValueBeforeKey(toks, SourceKey) == Some("Spotify")
  {
    var toks := ["artist", "title", "Spotify", "originSourceID"];
    OneCharFieldsMisread();
    CaptureAllFollowsRule(TrackMode, toks, TitleKey);
    CaptureAllFollowsRule(TrackMode, toks, ArtistKey);
    CaptureAllFollowsRule(TrackMode, toks, SourceKey);
  }

  /** The same blob decoded by `parse_blob`: it is not skipped, but yields a
      track titled `artist` by `"Unknown"`. */
  lemma OneCharFieldsPublished(blob: seq<byte>)
    requires Tokens(blob, TrackMode) == ["artist", "title", "Spotify", "originSourceID"]
    ensures ParseBlob(blob) == Some(Track(UnknownValue, "artist", "Spotify"))
  {
    OneCharFieldsRule();
  }

  // ---- The file-URI token of the location decoder ----

  /** Index `i` is the last of the first `n` tokens that starts with `file:///`. */
  ghost predicate IsLastUriBelow(toks: seq<string>, i: nat, n: nat) {
    && i < n <= |toks|
    && StartsWith(toks[i], FileScheme)
    && forall j :: i < j < n ==> !StartsWith(toks[j], FileScheme)
  }

  /** No token among the first `n` starts with `file:///`. */
  ghost predicate NoUriBelow(toks: seq<string>, n: nat) {
    forall i :: 0 <= i < n && i < |toks| ==> !StartsWith(toks[i], FileScheme)
  }

  /** A token that starts with `file:///` is neither key, so the `elif` chain
      always reaches the `file:///` test for it. */
  lemma UriTokenIsNoKey(s: string)
    requires StartsWith(s, FileScheme)
    ensures s != TitleKey && s != ArtistKey
  {
  }

  /** The location decoder keeps the last `file:///` token, wherever it stands. */
  lemma {:induction false} CaptureKeepsLastUri(toks: seq<string>, n: nat)
    requires n <= |toks|
    ensures CaptureUpTo(LocationMode, toks, n).uri.None? <==> NoUriBelow(toks, n)
    ensures forall i: nat :: IsLastUriBelow(toks, i, n) ==>
      CaptureUpTo(LocationMode, toks, n).uri == Some(toks[i])
  {
    if n > 0 {
      CaptureKeepsLastUri(toks, n - 1);
      var i := n - 1;
      if StartsWith(toks[i], FileScheme) {
        UriTokenIsNoKey(toks[i]);
        assert CaptureUpTo(LocationMode, toks, n).uri == Some(toks[i]);
        assert IsLastUriBelow(toks, i, n);
        forall j: nat | IsLastUriBelow(toks, j, n) ensures j == i {
        }
      } else {
        assert CaptureUpTo(LocationMode, toks, n).uri == CaptureUpTo(LocationMode, toks, n - 1).uri;
        forall j: nat | IsLastUriBelow(toks, j, n) ensures IsLastUriBelow(toks, j, n - 1) {
        }
      }
    }
  }

  // ---- The two decoders ----

  /** A decoded track: the field values, `"Unknown"` where the blob had none. */
  datatype Track = Track(artist: string, title: string, source: string)

  /** `PlaybackMonitor.parse_blob`. The track's fields are what the positional
      rule recovers from the blob's tokens, `"Unknown"` when it recovers
      nothing; the blob is skipped exactly when both artist and title are
      `"Unknown"`. */
  function ParseBlob(blob: seq<byte>): (r: Option<Track>)
    ensures var toks := Tokens(blob, TrackMode);
      var artist := ValueBeforeKey(toks, ArtistKey).GetOr(UnknownValue);
      var title := ValueBeforeKey(toks, TitleKey).GetOr(UnknownValue);
      && (r.None? <==> artist == UnknownValue && title == UnknownValue)
      && (r.Some? ==> r.value == Track(artist, title, ValueBeforeKey(toks, SourceKey).GetOr(UnknownValue)))
  {
    var toks := Tokens(blob, TrackMode);
    var c := CaptureAll(TrackMode, toks);
    CaptureAllFollowsRule(TrackMode, toks, TitleKey);
    CaptureAllFollowsRule(TrackMode, toks, ArtistKey);
    CaptureAllFollowsRule(TrackMode, toks, SourceKey);
    var title := c.title.GetOr(UnknownValue);
    var artist := c.artist.GetOr(UnknownValue);
    if title == UnknownValue && artist == UnknownValue then None
    else Some(Track(artist, title, c.source.GetOr(UnknownValue)))
  }

  /** A media location: artist, title and the local file path. */
  datatype Location = Location(artist: string, title: string, path: string)

  /** The path `parse_blob_for_path` derives from a `file:///` URI:
      percent-decoded, the scheme cut off, `/` turned into `\`. */
  function FilePath(uri: string): (p: string)
    ensures '/' !in p
    ensures StartsWith(uri, FileScheme) ==>
      p == ReplaceChar(Unquote(uri[|FileScheme|..]), '/', '\\')
  {
    var u := Unquote(uri);
    UnquoteFileUri(uri);
    var q := if StartsWith(u, FileScheme) then u[|FileScheme|..] else u;
    var p := ReplaceChar(q, '/', '\\');
    assert forall j :: 0 <= j < |p| ==> p[j] != '/';
    p
  }

  /** Percent-decoding keeps the `file:///` scheme of a URI. */
  lemma UnquoteFileUri(uri: string)
    ensures StartsWith(uri, FileScheme) ==>
      Unquote(uri) == FileScheme + Unquote(uri[|FileScheme|..])
  {
    if StartsWith(uri, FileScheme) {
      assert uri == FileScheme + uri[|FileScheme|..];
      UnquoteKeepsPlainPrefix(FileScheme, uri[|FileScheme|..]);
    }
  }

  /** Python truthiness of an optional string: present and non-empty. */
  predicate Truthy(o: Option<string>) {
    o.Some? && o.value != ""
  }

  /** Every value the rule recovers is one of the tokens. */
  lemma RuleValueIsToken(toks: seq<string>, key: string)
    ensures ValueBeforeKey(toks, key).Some? ==> ValueBeforeKey(toks, key).value in toks
  {
    if ValueBeforeKey(toks, key).Some? {
      var i :| IsLastKeyBelow(toks, key, i, |toks|);
      ValueBeforeKeyCases(toks, key);
    }
  }

  /** What the location decoder's loop captures, in terms of the rule: the
      rule's artist and title, and the last `file:///` token if any. Each
      captured value is one of the tokens. */
  lemma LocationCapture(toks: seq<string>)
    ensures var c := CaptureAll(LocationMode, toks);
      && c.title == ValueBeforeKey(toks, TitleKey)
      && c.artist == ValueBeforeKey(toks, ArtistKey)
      && (c.uri.None? <==> NoUriBelow(toks, |toks|))
      && (forall i: nat :: IsLastUriBelow(toks, i, |toks|) ==> c.uri == Some(toks[i]))
      && (c.title.Some? ==> c.title.value in toks)
      && (c.artist.Some? ==> c.artist.value in toks)
      && (c.uri.Some? ==> c.uri.value in toks)
  {
    CaptureAllFollowsRule(LocationMode, toks, TitleKey);
    CaptureAllFollowsRule(LocationMode, toks, ArtistKey);
    CaptureKeepsLastUri(toks, |toks|);
    RuleValueIsToken(toks, TitleKey);
    RuleValueIsToken(toks, ArtistKey);
    LastUriExists(toks, |toks|);
  }

  /** `ArtworkManager.parse_blob_for_path`. A location is produced exactly
      when the rule recovers an artist and a title and some token starts
      with `file:///`; the path comes from the last such token and holds no `/`. */
  function ParseBlobForPath(blob: seq<byte>): (r: Option<Location>)
    ensures var toks := Tokens(blob, LocationMode);
      var artist := ValueBeforeKey(toks, ArtistKey);
      var title := ValueBeforeKey(toks, TitleKey);
      && (r.Some? <==> artist.Some? && title.Some? && !NoUriBelow(toks, |toks|))
      && (r.Some? ==>
            && r.value.artist == artist.value
            && r.value.title == title.value
            && '/' !in r.value.path
            && forall i: nat :: IsLastUriBelow(toks, i, |toks|) ==> r.value.path == FilePath(toks[i]))
  {
    var toks := Tokens(blob, LocationMode);
    var c := CaptureAll(LocationMode, toks);
    LocationCapture(toks);
    if Truthy(c.title) && Truthy(c.artist) && Truthy(c.uri) then
      Some(Location(c.artist.value, c.title.value, FilePath(c.uri.value)))
    else None
  }

  /** When some token starts with `file:///`, there is a last one. */
  lemma {:induction false} LastUriExists(toks: seq<string>, n: nat)
    requires n <= |toks|
    ensures !NoUriBelow(toks, n) ==> exists i :: IsLastUriBelow(toks, i, n)
  {
    if n > 0 {
      if StartsWith(toks[n - 1], FileScheme) {
        assert IsLastUriBelow(toks, n - 1, n);
      } else {
        LastUriExists(toks, n - 1);
        if !NoUriBelow(toks, n) {
          var i :| IsLastUriBelow(toks, i, n - 1);
          assert IsLastUriBelow(toks, i, n);
        }
      }
    }
  }
}

=== FILE: dedup.dfy ===
/** `PlaybackMonitor.is_duplicate`: a five-second sliding window of recently
    admitted track strings. Time is an integer count of milliseconds. */
module Dedup {

  /** Five seconds, in milliseconds. */
  const WindowMs: int := 5000

  /** One remembered detection: the `"artist - title"` string and when it was admitted. */
  datatype Seen = Seen(track: string, at: int)

  /** The entry is still inside the window at time `now`. */
  predicate Fresh(e: Seen, now: int) {
    now - e.at < WindowMs
  }

  /** The list comprehension that drops the entries that left the window;
      the survivors keep their admission times, and their order
      (`PurgeAppend`). */
  function Purge(recent: seq<Seen>, now: int): (r: seq<Seen>)
    ensures |r| <= |recent|
    ensures forall e :: e in r <==> e in recent && Fresh(e, now)
  {
    if recent == [] then []
    else
      var rest := Purge(recent[1..], now);
      assert forall e :: e in recent <==> e == recent[0] || e in recent[1..];
      if Fresh(recent[0], now) then [recent[0]] + rest else rest
  }

  /** Purging keeps order: it works entry by entry, so the survivors of a
      concatenation are the survivors of each part, one after the other. */
  lemma {:induction false} PurgeAppend(a: seq<Seen>, b: seq<Seen>, now: int)
    ensures Purge(a + b, now) == Purge(a, now) + Purge(b, now)
  {
    if a != [] {
      assert (a + b)[1..] == a[1..] + b;
      PurgeAppend(a[1..], b, now);
    } else {
      assert a + b == b;
    }
  }

  /** The window holds `track`. */
  predicate Holds(recent: seq<Seen>, track: string) {
    exists e :: e in recent && e.track == track
  }

  /** Outcome of one call: whether the track was a duplicate, and the new window. */
  datatype Verdict = Verdict(duplicate: bool, recent: seq<Seen>)

  /** `is_duplicate(track)` at time `now`. The window is purged first; the
      call reports a duplicate exactly when a surviving entry carries the same
      string, in which case nothing is added and no age is reset; otherwise
      exactly `(track, now)` is appended after the survivors. */
  function Admit(recent: seq<Seen>, track: string, now: int): (v: Verdict)
    ensures v.duplicate <==> Holds(Purge(recent, now), track)
    ensures v.duplicate ==> v.recent == Purge(recent, now)
    ensures !v.duplicate ==> v.recent == Purge(recent, now) + [Seen(track, now)]
    ensures forall e :: e in v.recent ==> Fresh(e, now)
  {
    var kept := Purge(recent, now);
    if Holds(kept, track) then Verdict(true, kept)
    else Verdict(false, kept + [Seen(track, now)])
  }

  /** No two entries of the window carry the same string. */
  ghost predicate DistinctTracks(recent: seq<Seen>) {
    forall i, j :: 0 <= i < j < |recent| ==> recent[i].track != recent[j].track
  }

  /** Purging keeps the strings distinct. */
  lemma {:induction false} PurgeKeepsDistinct(recent: seq<Seen>, now: int)
    requires DistinctTracks(recent)
    ensures DistinctTracks(Purge(recent, now))
  {
    if recent != [] {
      PurgeKeepsDistinct(recent[1..], now);
      var rest := Purge(recent[1..], now);
      if Fresh(recent[0], now) {
        var r := [recent[0]] + rest;
        forall i, j | 0 <= i < j < |r| ensures r[i].track != r[j].track {
          assert r[j] == rest[j - 1] && r[j] in recent[1..];
          var k :| 0 <= k < |recent[1..]| && recent[1..][k] == r[j];
          assert recent[k + 1] == r[j];
          if i > 0 {
            assert r[i] == rest[i - 1];
          }
        }
      }
    }
  }

  /** The window never holds the same string twice. */
  lemma AdmitKeepsDistinct(recent: seq<Seen>, track: string, now: int)
    requires DistinctTracks(recent)
    ensures DistinctTracks(Admit(recent, track, now).recent)
  {
    PurgeKeepsDistinct(recent, now);
    var kept := Purge(recent, now);
    if !Holds(kept, track) {
      var r := kept + [Seen(track, now)];
      forall i, j | 0 <= i < j < |r| ensures r[i].track != r[j].track {
        if j == |kept| {
          assert r[i] == kept[i] && kept[i] in kept;
        } else {
          assert r[i] == kept[i] && r[j] == kept[j];
        }
      }
    }
  }

  /** The window semantics: once `track` has been admitted at `t0`, a second
      call with the same string at `t1` is a duplicate exactly when
      `t1 - t0` is less than five seconds. */
  lemma SuppressedWithinWindow(recent: seq<Seen>, track: string, t0: int, t1: int)
    requires !Admit(recent, track, t0).duplicate
    ensures Admit(Admit(recent, track, t0).recent, track, t1).duplicate <==> t1 - t0 < WindowMs
  {
    var w := Admit(recent, track, t0).recent;
    var kept := Purge(recent, t0);
    assert w == kept + [Seen(track, t0)];
    assert Seen(track, t0) in w;
    if Holds(Purge(w, t1), track) {
      var e :| e in Purge(w, t1) && e.track == track;
      assert e in w;
      if e != Seen(track, t0) {
        assert false;
      }
    }
  }

  /** The worked example: admitted at 0 s, suppressed at 2 s, admitted again
      at 6 s. The suppressed call at 2 s does not renew the entry, so at 6 s
      the entry from 0 s has aged out. */
  lemma WindowExample(track: string)
    ensures !Admit([], track, 0).duplicate
    ensures Admit(Admit([], track, 0).recent, track, 2000).duplicate
    ensures !Admit(Admit(Admit([], track, 0).recent, track, 2000).recent, track, 6000).duplicate
  {
    SuppressedWithinWindow([], track, 0, 2000);
    var w0 := Admit([], track, 0);
    var w2 := Admit(w0.recent, track, 2000);
    assert w0.recent == [Seen(track, 0)];
    assert w2.recent == Purge(w0.recent, 2000);
    assert Purge(w2.recent, 6000) == [];
  }
}

=== FILE: monitor.dfy ===
/** `PlaybackMonitor.run`: one poll of the history table per tick. The rows
    whose `rowid` the previous snapshot did not hold are decoded, filtered by
    the five-second window, and each accepted detection looks up artwork and
    is published. Everything the thread reads from outside (the database,
    the clocks, the file system) is an argument. */
module Monitor {
  import opened Outcomes
  import opened Text
  import opened TokenScan
  import opened BlobDecoder
  import opened Dedup
  import opened PathIndex
  import opened Publisher
  import opened Snapshots

  /** One accepted detection: the event published for it, the
      `"artist - title"` string the window compared, and the undisplayed
      source the log line reports. */
  datatype Detection = Detection(event: Event, track: string, rawSource: string)

  /** The log line of a detection. */
  function LogLine(d: Detection): (line: string)
    ensures |line| > |d.event.timestamp| + |d.track| + |d.rawSource|
  {
    "[" + d.event.timestamp + "] Detected: " + d.track + " (ON AIR) [Source: " + d.rawSource
      + "] [Art: " + (if d.event.hasArtwork then "Yes" else "No") + "]"
  }

  /** The log line reports the detection: its clock stamp, the track string,
      the raw (undisplayed) source and the artwork outcome all appear in it. */
  lemma LogLineReports(d: Detection)
    ensures Contains(LogLine(d), d.event.timestamp)
    ensures Contains(LogLine(d), d.track)
    ensures Contains(LogLine(d), d.rawSource)
    ensures Contains(LogLine(d), if d.event.hasArtwork then "[Art: Yes]" else "[Art: No]")
  {
    var line := LogLine(d);
    var ts := d.event.timestamp;
    var a := "[" + ts + "] Detected: ";
    var b := a + d.track + " (ON AIR) [Source: ";
    var c := b + d.rawSource + "] ";
    var art := if d.event.hasArtwork then "[Art: Yes]" else "[Art: No]";
    assert line == c + art;
    assert line[1..][..|ts|] == ts;
    assert StartsWith(line[1..], ts);
    assert line[|a|..][..|d.track|] == d.track;
    assert StartsWith(line[|a|..], d.track);
    assert line[|b|..][..|d.rawSource|] == d.rawSource;
    assert StartsWith(line[|b|..], d.rawSource);
    assert line[|c|..] == art;
    assert StartsWith(line[|c|..], art);
  }

  /** What the outside world shows during one tick: the wall clock in
      milliseconds, the `HH:MM:SS` stamp, whether the tag library loaded,
      the file system, and what a rebuild of the path cache would read. */
  datatype Env = Env(now: nat, clock: string, hasMutagen: bool, disk: Disk,
                     locations: Read<seq<seq<byte>>>)

  /** The monitor thread's state together with the published state it owns. */
  datatype State = State(last: Snapshot, recent: seq<Seen>, paths: PathCache,
                         published: Published, log: seq<Detection>)

  /** The events of the log, oldest first. */
  function Events(log: seq<Detection>): (es: seq<Event>)
    ensures |es| == |log|
    ensures forall i :: 0 <= i < |log| ==> es[i] == log[i].event
  {
    seq(|log|, i requires 0 <= i < |log| => log[i].event)
  }

  /** The string the window compares. */
  function TrackString(t: Track): string {
    t.artist + " - " + t.title
  }

  /** What holds between ticks: the published state is consistent and is
      exactly the ten newest logged events, newest first; the window never
      holds a string twice; the baseline is a well-formed snapshot. */
  ghost predicate Invariant(m: State) {
    && Valid(m.last)
    && Consistent(m.published)
    && m.published.history == Newest(Reverse(Events(m.log)))
    && DistinctTracks(m.recent)
  }

  /** Thread creation and start: the artwork manager builds its path cache
      from the location rows (`PathIndex.Build`), then the first snapshot is
      taken as the baseline (empty when the read fails); nothing is
      published yet. */
  function Start(baseline: Read<seq<Row>>, locations: Read<seq<seq<byte>>>): (m: State)
    ensures m.published == Initial && m.log == [] && m.recent == []
    ensures m.paths == Build(locations)
    ensures baseline.Failed? ==> m.last == EmptySnapshot
    ensures baseline.Fetched? ==> m.last == FromRows(baseline.value)
  {
    var last := match baseline
      case Failed(_) => EmptySnapshot
      case Fetched(rows) => FromRows(rows);
    State(last, [], Build(locations), Initial, [])
  }

  /** Start establishes the invariant. */
  lemma StartEstablishes(baseline: Read<seq<Row>>, locations: Read<seq<seq<byte>>>)
    ensures Invariant(Start(baseline, locations))
  {
    var m := Start(baseline, locations);
    assert Events(m.log) == [];
    assert Reverse([]) == [];
  }

  /** The work for one new row, given what its blob decodes to. A blob that
      does not decode is skipped; a duplicate inside the window only ages the
      window; anything else is announced, published and logged. */
  function HandleRow(m: State, decoded: Option<Track>, env: Env): (r: State)
    ensures r.last == m.last
    ensures |m.log| <= |r.log| <= |m.log| + 1 && r.log[..|m.log|] == m.log
    ensures |r.log| == |m.log| ==> r.published == m.published && r.paths == m.paths
    ensures |r.log| > |m.log| ==> r.published == Publish(m.published, r.log[|m.log|].event)
  {
    match decoded
    case None => m
    case Some(t) =>
      var track := TrackString(t);
      var v := Admit(m.recent, track, env.now);
      if v.duplicate then m.(recent := v.recent)
      else
        var art := ExtractArtwork(m.paths, t.artist, t.title, env.hasMutagen, env.disk, env.locations);
        var e := Announce(t.artist, t.title, t.source, env.clock, art.found, env.now / 1000);
        assert (m.log + [Detection(e, track, t.source)])[..|m.log|] == m.log;
        State(m.last, v.recent, art.cache, Publish(m.published, e),
              m.log + [Detection(e, track, t.source)])
  }

  /** A decoded track outside the window is announced: the event carries the
      artwork outcome and the second-resolution stamp, it becomes current,
      the log gains exactly its detection and the window gains its string. */
  lemma HandleRowAccepts(m: State, t: Track, env: Env)
    requires !Holds(Purge(m.recent, env.now), TrackString(t))
    ensures var art := ExtractArtwork(m.paths, t.artist, t.title, env.hasMutagen, env.disk, env.locations);
      var e := Announce(t.artist, t.title, t.source, env.clock, art.found, env.now / 1000);
      && HandleRow(m, Some(t), env).log == m.log + [Detection(e, TrackString(t), t.source)]
      && HandleRow(m, Some(t), env).published.current == e
      && HandleRow(m, Some(t), env).recent == Purge(m.recent, env.now) + [Seen(TrackString(t), env.now)]
  {
  }

  /** A blob that does not decode, or a track still inside the window, is
      not announced: nothing is published or logged and the path cache is
      not consulted. */
  lemma HandleRowRejects(m: State, decoded: Option<Track>, env: Env)
    requires decoded.None? || Holds(Purge(m.recent, env.now), TrackString(decoded.value))
    ensures HandleRow(m, decoded, env).log == m.log
    ensures HandleRow(m, decoded, env).published == m.published
    ensures HandleRow(m, decoded, env).paths == m.paths
  {
  }

  /** `Reverse` of an appended sequence starts with the appended element. */
  lemma ReverseSnoc(es: seq<Event>, e: Event)
    ensures Reverse(es + [e]) == [e] + Reverse(es)
  {
    var r := Reverse(es + [e]);
    assert r[0] == e;
    assert r[1..] == Reverse(es);
  }

  /** Publishing one more logged event keeps the history equal to the ten
      newest logged events. */
  lemma PublishTracksLog(p: Published, log: seq<Detection>, d: Detection)
    requires Consistent(p)
    requires p.history == Newest(Reverse(Events(log)))
    ensures Publish(p, d.event).history == Newest(Reverse(Events(log + [d])))
  {
    assert Events(log + [d]) == Events(log) + [d.event];
    PublishPrepends(p, d.event);
    ReverseSnoc(Events(log), d.event);
    NewestAbsorbs([d.event], Reverse(Events(log)));
  }

  /** One row keeps the invariant. */
  lemma HandleRowKeepsInvariant(m: State, decoded: Option<Track>, env: Env)
    requires Invariant(m)
    ensures Invariant(HandleRow(m, decoded, env))
  {
    if decoded.Some? {
      var r := HandleRow(m, decoded, env);
      AdmitKeepsDistinct(m.recent, TrackString(decoded.value), env.now);
      if |r.log| > |m.log| {
        var d := r.log[|m.log|];
        assert r.log == m.log + [d];
        PublishKeepsConsistent(m.published, d.event);
        PublishTracksLog(m.published, m.log, d);
      }
    }
  }

  /** The decoded rows, handled in order. */
  function HandleRows(m: State, decoded: seq<Option<Track>>, env: Env): (r: State)
    ensures r.last == m.last
    ensures |m.log| <= |r.log| <= |m.log| + |decoded| && r.log[..|m.log|] == m.log
    decreases |decoded|
  {
    if decoded == [] then m
    else
      var next := HandleRow(m, decoded[0], env);
      var r := HandleRows(next, decoded[1..], env);
      assert r.log[..|m.log|] == r.log[..|next.log|][..|m.log|];
      r
  }

  lemma {:induction false} HandleRowsKeepInvariant(m: State, decoded: seq<Option<Track>>, env: Env)
    requires Invariant(m)
    ensures Invariant(HandleRows(m, decoded, env))
    decreases |decoded|
  {
    if decoded != [] {
      HandleRowKeepsInvariant(m, decoded[0], env);
      HandleRowsKeepInvariant(HandleRow(m, decoded[0], env), decoded[1..], env);
    }
  }

  /** What the blobs of the rows `ids` of `cur` decode to, in order. */
  function DecodeRows(cur: Snapshot, ids: seq<int>): (ts: seq<Option<Track>>)
    requires forall i :: 0 <= i < |ids| ==> ids[i] in cur.rows
    ensures |ts| == |ids|
    ensures forall i :: 0 <= i < |ids| ==> ts[i] == ParseBlob(cur.rows[ids[i]].data)
  {
    seq(|ids|, i requires 0 <= i < |ids| => ParseBlob(cur.rows[ids[i]].data))
  }

  /** One iteration of the polling loop. A failed read or an empty snapshot
      changes nothing, not even the baseline; otherwise the new rows are
      handled in snapshot order and the snapshot becomes the baseline. */
  function Tick(m: State, poll: Read<seq<Row>>, env: Env): (r: State)
    ensures poll.Failed? ==> r == m
    ensures poll.Fetched? && FromRows(poll.value).order == [] ==> r == m
    ensures poll.Fetched? && FromRows(poll.value).order != [] ==> r.last == FromRows(poll.value)
    ensures |m.log| <= |r.log| && r.log[..|m.log|] == m.log
  {
    match poll
    case Failed(_) => m
    case Fetched(rows) =>
      var cur := FromRows(rows);
      if cur.order == [] then m
      else HandleRows(m, DecodeRows(cur, NewRows(m.last, cur)), env).(last := cur)
  }

  /** Every tick keeps the invariant. */
  lemma TickKeepsInvariant(m: State, poll: Read<seq<Row>>, env: Env)
    requires Invariant(m)
    ensures Invariant(Tick(m, poll, env))
  {
    if poll.Fetched? {
      var cur := FromRows(poll.value);
      if cur.order != [] {
        HandleRowsKeepInvariant(m, DecodeRows(cur, NewRows(m.last, cur)), env);
      }
    }
  }

  /** A tick whose snapshot holds only known `rowid`s publishes and logs
      nothing, even when payloads changed under those `rowid`s. */
  lemma TickWithoutNewRowsIsQuiet(m: State, rows: seq<Row>, env: Env)
    requires forall id :: id in FromRows(rows).rows ==> id in m.last.rows
    ensures Tick(m, Fetched(rows), env).published == m.published
    ensures Tick(m, Fetched(rows), env).log == m.log
    ensures Tick(m, Fetched(rows), env).recent == m.recent
  {
    NoNewRowsWhenAllKnown(m.last, FromRows(rows));
  }

  /** A first tick over exactly the rows present at start changes nothing:
      the state is as started. */
  lemma FirstTickSeesBaseline(rows: seq<Row>, locations: Read<seq<seq<byte>>>, env: Env)
    ensures Tick(Start(Fetched(rows), locations), Fetched(rows), env) == Start(Fetched(rows), locations)
  {
    var m := Start(Fetched(rows), locations);
    NoNewRowsWhenAllKnown(m.last, FromRows(rows));
  }

  /** On the first tick, whatever it reads, a `rowid` present at start is
      not among the new rows. */
  lemma StartRowsNotNew(rows0: seq<Row>, locations: Read<seq<seq<byte>>>, rows: seq<Row>, id: int)
    requires id in FromRows(rows0).rows
    ensures id !in NewRows(Start(Fetched(rows0), locations).last, FromRows(rows))
  {
  }

  /** A tick on a nonempty snapshot handles the decoded new rows. */
  lemma TickHandlesNewRows(m: State, rows: seq<Row>, env: Env, ids: seq<int>, ds: seq<Option<Track>>)
    requires ids == NewRows(m.last, FromRows(rows))
    requires ids != [] && ds == DecodeRows(FromRows(rows), ids)
    ensures Tick(m, Fetched(rows), env) == HandleRows(m, ds, env).(last := FromRows(rows))
  {
    var cur := FromRows(rows);
    assert ids[0] in ids;
    assert ids[0] in cur.order;
  }

  /** A single row decodes to what its blob decodes to. */
  lemma DecodeOne(cur: Snapshot, id: int, t: Track)
    requires id in cur.rows && ParseBlob(cur.rows[id].data) == Some(t)
    ensures DecodeRows(cur, [id]) == [Some(t)]
  {
  }

  /** A single decoded row handled on its own. */
  lemma HandleOneRow(m: State, d: Option<Track>, env: Env)
    ensures HandleRows(m, [d], env) == HandleRow(m, d, env)
  {
    assert [d][1..] == [];
  }

  /** One new row whose blob decodes to a track outside the window: the
      track is announced, with its source shown unless it is a local-file
      load, and it heads the history. */
  lemma NewTrackIsAnnounced(m: State, rows: seq<Row>, env: Env, t: Track)
    requires DecodeRows(FromRows(rows), NewRows(m.last, FromRows(rows))) == [Some(t)]
    requires !Holds(Purge(m.recent, env.now), TrackString(t))
    ensures var r := Tick(m, Fetched(rows), env);
      && r.published.current.artist == t.artist
      && r.published.current.title == t.title
      && r.published.current.kind == Playing
      && r.published.current.timestamp == env.clock
      && (r.published.current.source.None? <==> Lower(t.source) == "explorer")
      && (r.published.current.source.Some? ==> r.published.current.source.value == t.source)
      && r.published.history != [] && r.published.history[0] == r.published.current
      && (|m.published.history| < Capacity ==> r.published.history[1..] == m.published.history)
      && |r.log| == |m.log| + 1
      && Seen(TrackString(t), env.now) in r.recent
  {
    var cur := FromRows(rows);
    var ids := NewRows(m.last, cur);
    TickHandlesNewRows(m, rows, env, ids, DecodeRows(cur, ids));
    HandleOneRow(m, Some(t), env);
    HandleRowAccepts(m, t, env);
  }

  /** Two new rows in one tick that decode to the same track: the second is
      inside the window of the first, so the track is announced once. */
  lemma RepeatInOneTickAnnouncedOnce(m: State, rows: seq<Row>, env: Env, t: Track)
    requires DecodeRows(FromRows(rows), NewRows(m.last, FromRows(rows))) == [Some(t), Some(t)]
    requires !Holds(Purge(m.recent, env.now), TrackString(t))
    ensures |Tick(m, Fetched(rows), env).log| == |m.log| + 1
  {
    var cur := FromRows(rows);
    var ids := NewRows(m.last, cur);
    TickHandlesNewRows(m, rows, env, ids, DecodeRows(cur, ids));
    RepeatAnnouncedOnce(m, t, env);
  }

  /** The same track decoded twice in a row is announced once. */
  lemma RepeatAnnouncedOnce(m: State, t: Track, env: Env)
    requires !Holds(Purge(m.recent, env.now), TrackString(t))
    ensures |HandleRows(m, [Some(t), Some(t)], env).log| == |m.log| + 1
  {
    HandleRowAccepts(m, t, env);
    var next := HandleRow(m, Some(t), env);
    var s := Seen(TrackString(t), env.now);
    assert s in next.recent && Fresh(s, env.now);
    assert s in Purge(next.recent, env.now);
    HandleRowRejects(next, Some(t), env);
    assert [Some(t), Some(t)][1..] == [Some(t)];
    HandleOneRow(next, Some(t), env);
  }

  /** The same track decoded for two rows handled at two clock readings:
      the second is announced again exactly when five seconds or more have
      passed between the readings. */
  lemma RepeatAcrossClocks(m: State, t: Track, env1: Env, env2: Env)
    requires !Holds(Purge(m.recent, env1.now), TrackString(t))
    ensures |HandleRow(HandleRow(m, Some(t), env1), Some(t), env2).log| == |m.log| + 1
            <==> env2.now - env1.now < WindowMs
  {
    HandleRowAccepts(m, t, env1);
    SuppressedWithinWindow(m.recent, TrackString(t), env1.now, env2.now);
  }

  /** A tick whose only new row decodes to a track admitted less than five
      seconds earlier publishes and logs nothing. */
  lemma RecentTrackSuppressed(m: State, rows: seq<Row>, env: Env, t: Track, t0: int)
    requires DecodeRows(FromRows(rows), NewRows(m.last, FromRows(rows))) == [Some(t)]
    requires Seen(TrackString(t), t0) in m.recent && env.now - t0 < WindowMs
    ensures Tick(m, Fetched(rows), env).published == m.published
    ensures Tick(m, Fetched(rows), env).log == m.log
  {
    var cur := FromRows(rows);
    var ids := NewRows(m.last, cur);
    TickHandlesNewRows(m, rows, env, ids, DecodeRows(cur, ids));
    RecentRowSuppressed(m, t, env, t0);
  }

  lemma RecentRowSuppressed(m: State, t: Track, env: Env, t0: int)
    requires Seen(TrackString(t), t0) in m.recent && env.now - t0 < WindowMs
    ensures HandleRows(m, [Some(t)], env).published == m.published
    ensures HandleRows(m, [Some(t)], env).log == m.log
  {
    HandleOneRow(m, Some(t), env);
    assert Seen(TrackString(t), t0) in Purge(m.recent, env.now);
    HandleRowRejects(m, Some(t), env);
  }

  /** With an empty baseline every row of the first snapshot is new, in
      snapshot order. */
  lemma FirstRowsAreNew(locations: Read<seq<seq<byte>>>, rows: seq<Row>)
    ensures NewRows(Start(Fetched([]), locations).last, FromRows(rows)) == FromRows(rows).order
  {
    assert FromRows([]) == EmptySnapshot;
    UnseenNothingSeen(FromRows(rows).order);
  }

  /** From an empty store, the first row that decodes to a track is
      published as the only history entry, with its source shown. */
  lemma FirstDetectionFromEmptyStore(locations: Read<seq<seq<byte>>>, rows: seq<Row>, env: Env,
                                     id: int, artist: string, title: string)
    requires FromRows(rows).order == [id]
    requires DecodeRows(FromRows(rows), [id]) == [Some(Track(artist, title, "Spotify"))]
    ensures var r := Tick(Start(Fetched([]), locations), Fetched(rows), env);
      && r.published.current.artist == artist
      && r.published.current.title == title
      && r.published.current.source == Some("Spotify")
      && r.published.current.kind == Playing
      && |r.published.history| == 1
  {
    var m := Start(Fetched([]), locations);
    var t := Track(artist, title, "Spotify");
    FirstRowsAreNew(locations, rows);
    DisplaySourceExamples();
    NewTrackIsAnnounced(m, rows, env, t);
  }
}

=== FILE: outcomes.dfy ===
/** Small result types shared by the pipeline: an optional value (Python's `None`
    or a value) and the outcome of a read from the external database. */
module Outcomes {

  datatype Option<+T> = None | Some(value: T) {

    /** The wrapped value, or `default` when there is none. */
    function GetOr(default: T): T {
      match this
      case Some(v) => v
      case None => default
    }
  }

  /** A read-only query against the application's database either fails
      (locked file, timeout, malformed result) or returns its rows. */
  datatype Read<+T> = Failed(reason: string) | Fetched(value: T)
}

=== FILE: path_index.dfy ===
/** `ArtworkManager`: the cache from a track's identity to its local file,
    filled from the `localMediaItemLocations` rows, and the artwork lookup
    that refreshes that cache at most once per call. Reading the database,
    the file system and the audio tags are inputs. */
module PathIndex {
  import opened Outcomes
  import opened Text
  import opened TokenScan
  import opened BlobDecoder

  /** The cache key: the artist and the title with edge whitespace stripped. */
  type Identity = (string, string)

  function IdentityOf(artist: string, title: string): (k: Identity)
    ensures NoEdgeSpace(k.0) && NoEdgeSpace(k.1)
    ensures |k.0| <= |artist| && |k.1| <= |title|
  {
    (Strip(artist), Strip(title))
  }

  /** Normalising a key a second time changes nothing. */
  lemma IdentityOfIdempotent(artist: string, title: string)
    ensures IdentityOf(IdentityOf(artist, title).0, IdentityOf(artist, title).1) == IdentityOf(artist, title)
  {
    StripKeepsTrimmed(Strip(artist));
    StripKeepsTrimmed(Strip(title));
  }

  /** Filing and lookup normalise names the same way, but the names come from
      two decoders with different classes: `/` (like `\ : % +`) ends a track
      token but not a location token. An artist `AB/CD` before the key is
      therefore read as `CD` for playback and as `AB/CD` for the location,
      and the two keys differ. */
  lemma SlashSplitsKey(title: string)
    ensures Allowed(LocationMode, '/') && !Allowed(TrackMode, '/')
    ensures ValueBeforeKey(["AB", "CD", "artist"], ArtistKey) == Some("CD")
    ensures ValueBeforeKey(["AB/CD", "artist"], ArtistKey) == Some("AB/CD")
    ensures IdentityOf("CD", title) != IdentityOf("AB/CD", title)
  {
    assert IsLastKeyBelow(["AB", "CD", "artist"], ArtistKey, 2, 3);
    ValueBeforeKeyCases(["AB", "CD", "artist"], ArtistKey);
    assert IsLastKeyBelow(["AB/CD", "artist"], ArtistKey, 1, 2);
    ValueBeforeKeyCases(["AB/CD", "artist"], ArtistKey);
    StripKeepsTrimmed("AB/CD");
  }

  type PathCache = map<Identity, string>

  /** What one location row contributes to the cache, if it parses. */
  function Entry(blob: seq<byte>): (e: Option<(Identity, string)>)
    ensures e.Some? <==> ParseBlobForPath(blob).Some?
    ensures e.Some? ==> e.value.1 == ParseBlobForPath(blob).value.path
    ensures e.Some? ==> e.value.0 == IdentityOf(ParseBlobForPath(blob).value.artist,
                                               ParseBlobForPath(blob).value.title)
  {
    match ParseBlobForPath(blob)
    case None => None
    case Some(loc) => Some((IdentityOf(loc.artist, loc.title), loc.path))
  }

  /** What each row of a fetch contributes, in row order. */
  function Entries(rows: seq<seq<byte>>): (es: seq<Option<(Identity, string)>>)
    ensures |es| == |rows|
    ensures forall j :: 0 <= j < |rows| ==> es[j] == Entry(rows[j])
  {
    seq(|rows|, j requires 0 <= j < |rows| => Entry(rows[j]))
  }

  /** How many of the rows parse. */
  function Parsed(es: seq<Option<(Identity, string)>>): (n: nat)
    ensures n <= |es|
    ensures n == 0 <==> forall j :: 0 <= j < |es| ==> es[j].None?
    decreases |es|
  {
    if es == [] then 0
    else
      var init := es[..|es| - 1];
      assert forall j :: 0 <= j < |init| ==> init[j] == es[j];
      Parsed(init) + (if es[|es| - 1].Some? then 1 else 0)
  }

  /** Result of a load: the cache afterwards and the number of rows that parsed. */
  datatype Loaded = Loaded(cache: PathCache, count: nat)

  /** The loop of `load_paths`, over what the rows contribute, in order. The
      cache is only ever written to: entries already present survive unless
      a row carries the same key, and a row that does not parse is skipped. */
  function File(cache: PathCache, es: seq<Option<(Identity, string)>>): (l: Loaded)
    ensures l.count == Parsed(es)
    ensures l.count <= |es|
    ensures l.count == 0 <==> forall j :: 0 <= j < |es| ==> es[j].None?
    ensures forall k :: k in cache ==> k in l.cache
    decreases |es|
  {
    if es == [] then Loaded(cache, 0)
    else
      var init := es[..|es| - 1];
      var before := File(cache, init);
      assert forall j :: 0 <= j < |init| ==> init[j] == es[j];
      match es[|es| - 1]
      case None => before
      case Some(kv) => Loaded(before.cache[kv.0 := kv.1], before.count + 1)
  }

  /** `load_paths`: a failed database read leaves the cache as it was and
      counts nothing; otherwise every parsed row is filed, in row order. */
  function LoadPaths(cache: PathCache, read: Read<seq<seq<byte>>>): (l: Loaded)
    ensures read.Failed? ==> l == Loaded(cache, 0)
    ensures read.Fetched? ==> l == File(cache, Entries(read.value))
    ensures read.Fetched? ==> l.count <= |read.value|
  {
    match read
    case Failed(_) => Loaded(cache, 0)
    case Fetched(rows) => File(cache, Entries(rows))
  }

  /** Position `i` is the last one that files a path under key `k`. */
  ghost predicate LastFiling(es: seq<Option<(Identity, string)>>, k: Identity, i: nat) {
    && i < |es|
    && es[i].Some? && es[i].value.0 == k
    && forall j :: i < j < |es| ==> es[j].None? || es[j].value.0 != k
  }

  /** Nothing files a path under key `k`. */
  ghost predicate NoFiling(es: seq<Option<(Identity, string)>>, k: Identity) {
    forall j :: 0 <= j < |es| ==> es[j].None? || es[j].value.0 != k
  }

  /** The last row for a key wins: its path is what the cache holds. */
  lemma {:induction false} FileLastWins(cache: PathCache, es: seq<Option<(Identity, string)>>, k: Identity, i: nat)
    requires LastFiling(es, k, i)
    ensures k in File(cache, es).cache
    ensures File(cache, es).cache[k] == es[i].value.1
    decreases |es|
  {
    var n := |es| - 1;
    var init := es[..n];
    if i < n {
      assert LastFiling(init, k, i) by {
        assert forall j :: 0 <= j < |init| ==> init[j] == es[j];
      }
      FileLastWins(cache, init, k, i);
    }
  }

  /** A key no row mentions keeps whatever the cache had for it, including
      having nothing. */
  lemma {:induction false} FileKeepsOthers(cache: PathCache, es: seq<Option<(Identity, string)>>, k: Identity)
    requires NoFiling(es, k)
    ensures k in File(cache, es).cache <==> k in cache
    ensures k in cache ==> File(cache, es).cache[k] == cache[k]
    decreases |es|
  {
    if es != [] {
      var init := es[..|es| - 1];
      assert NoFiling(init, k) by {
        assert forall j :: 0 <= j < |init| ==> init[j] == es[j];
      }
      FileKeepsOthers(cache, init, k);
    }
  }

  /** The keys after a load are the keys before it and the keys some row
      files a path under. */
  lemma {:induction false} FileKeys(cache: PathCache, es: seq<Option<(Identity, string)>>, k: Identity)
    ensures k in File(cache, es).cache <==> k in cache || !NoFiling(es, k)
    decreases |es|
  {
    if es != [] {
      var init := es[..|es| - 1];
      assert forall j :: 0 <= j < |init| ==> init[j] == es[j];
      FileKeys(cache, init, k);
      if !NoFiling(init, k) {
        var j :| 0 <= j < |init| && init[j].Some? && init[j].value.0 == k;
        assert es[j] == init[j];
      }
    }
  }

  /** `ArtworkManager.__init__`: the cache starts empty and is filled by one
      load. It holds exactly the keys some location row files a path under,
      and nothing at all when the read fails. */
  function Build(read: Read<seq<seq<byte>>>): (c: PathCache)
    ensures read.Failed? ==> c == map[]
    ensures read.Fetched? ==> c == File(map[], Entries(read.value)).cache
    ensures read.Fetched? ==> forall k :: k in c <==> !NoFiling(Entries(read.value), k)
  {
    match read
    case Failed(_) => map[]
    case Fetched(rows) =>
      var es := Entries(rows);
      forall k | true ensures k in File(map[], es).cache <==> !NoFiling(es, k) {
        FileKeys(map[], es, k);
      }
      File(map[], es).cache
  }

  /** Which files exist, and which of them carry embedded artwork that the
      tag reader can extract. */
  datatype Disk = Disk(existing: set<string>, withArtwork: set<string>)

  /** The cached path for `k` is truthy and names an existing file. */
  predicate Usable(cache: PathCache, k: Identity, disk: Disk) {
    k in cache && cache[k] != [] && cache[k] in disk.existing
  }

  /** Outcome of `extract_artwork`: whether the cover was written, the cache
      afterwards, and how many times the cache was rebuilt. */
  datatype Artwork = Artwork(found: bool, cache: PathCache, reloads: nat)

  /** `extract_artwork(artist, title)`. Without the tag library nothing is
      looked up. Otherwise a missing, empty or vanished path triggers one
      rebuild from `reload`, and the lookup is tried once more; the cover is
      found exactly when the path finally looked up exists and has artwork. */
  function ExtractArtwork(cache: PathCache, artist: string, title: string, hasMutagen: bool,
                          disk: Disk, reload: Read<seq<seq<byte>>>): (a: Artwork)
    ensures !hasMutagen ==> a == Artwork(false, cache, 0)
    ensures a.reloads <= 1
    ensures a.reloads == 1 <==> hasMutagen && !Usable(cache, IdentityOf(artist, title), disk)
    ensures a.reloads == 0 ==> a.cache == cache
    ensures a.reloads == 1 ==> a.cache == LoadPaths(cache, reload).cache
    ensures a.found <==> hasMutagen && Usable(a.cache, IdentityOf(artist, title), disk)
                         && a.cache[IdentityOf(artist, title)] in disk.withArtwork
  {
    if !hasMutagen then Artwork(false, cache, 0)
    else
      var k := IdentityOf(artist, title);
      if Usable(cache, k, disk) then Artwork(cache[k] in disk.withArtwork, cache, 0)
      else
        var rebuilt := LoadPaths(cache, reload).cache;
        Artwork(Usable(rebuilt, k, disk) && rebuilt[k] in disk.withArtwork, rebuilt, 1)
  }

  /** A miss that the rebuild repairs: when the cache has nothing usable for
      the track but the last location row for it names an existing file with
      artwork, one call finds the cover after exactly one rebuild. */
  lemma MissThenRebuild(cache: PathCache, artist: string, title: string, disk: Disk,
                        rows: seq<seq<byte>>, i: nat)
    requires !Usable(cache, IdentityOf(artist, title), disk)
    requires LastFiling(Entries(rows), IdentityOf(artist, title), i)
    requires Entry(rows[i]).value.1 != []
    requires Entry(rows[i]).value.1 in disk.existing && Entry(rows[i]).value.1 in disk.withArtwork
    ensures ExtractArtwork(cache, artist, title, true, disk, Fetched(rows)).found
    ensures ExtractArtwork(cache, artist, title, true, disk, Fetched(rows)).reloads == 1
  {
    FileLastWins(cache, Entries(rows), IdentityOf(artist, title), i);
  }

  /** A miss the rebuild cannot repair: when no location row mentions the
      track and the cache has nothing usable for it, the call reports no
      artwork and the track stays unusable. */
  lemma MissStaysMissing(cache: PathCache, artist: string, title: string, disk: Disk,
                         rows: seq<seq<byte>>)
    requires !Usable(cache, IdentityOf(artist, title), disk)
    requires NoFiling(Entries(rows), IdentityOf(artist, title))
    ensures !ExtractArtwork(cache, artist, title, true, disk, Fetched(rows)).found
  {
    FileKeepsOthers(cache, Entries(rows), IdentityOf(artist, title));
  }
}

=== FILE: percent.dfy ===
/** `urllib.parse.unquote` restricted to ASCII escapes, and its inverse on
    ASCII text (`urllib.parse.quote` with `/` kept). */
module PercentCoding {

  predicate IsHexDigit(c: char) {
    '0' <= c <= '9' || 'a' <= c <= 'f' || 'A' <= c <= 'F'
  }

  function HexValue(c: char): (v: nat)
    requires IsHexDigit(c)
    ensures v < 16
  {
    if '0' <= c <= '9' then c as int - '0' as int
    else if 'a' <= c <= 'f' then c as int - 'a' as int + 10
    else c as int - 'A' as int + 10
  }

  /** The upper-case hex digit of `v`, as `quote` writes it. */
  function HexDigit(v: nat): (c: char)
    requires v < 16
    ensures IsHexDigit(c) && HexValue(c) == v
  {
    if v < 10 then ('0' as int + v) as char else ('A' as int + v - 10) as char
  }

  /** `s` starts with an escape `%XY` of an ASCII character. */
  predicate StartsWithAsciiEscape(s: string) {
    && |s| >= 3 && s[0] == '%' && IsHexDigit(s[1]) && IsHexDigit(s[2])
    && 16 * HexValue(s[1]) + HexValue(s[2]) < 128
  }

  /** Percent-decoding: each `%XY` escape of an ASCII character becomes that
      character; a `%` that does not start such an escape stays as it is. */
  function Unquote(s: string): (r: string)
    ensures '%' !in s ==> r == s
    ensures |r| <= |s|
  {
    if s == [] then []
    else if StartsWithAsciiEscape(s) then
      [(16 * HexValue(s[1]) + HexValue(s[2])) as char] + Unquote(s[3..])
    else
      assert '%' !in s ==> '%' !in s[1..];
      [s[0]] + Unquote(s[1..])
  }

  /** A first character other than `%` is copied. */
  lemma UnquotePlainHead(s: string)
    requires s != [] && s[0] != '%'
    ensures Unquote(s) == [s[0]] + Unquote(s[1..])
  {
  }

  /** A prefix without `%` passes through percent-decoding unchanged. */
  lemma {:induction false} UnquoteKeepsPlainPrefix(p: string, s: string)
    requires '%' !in p
    ensures Unquote(p + s) == p + Unquote(s)
  {
    if p == [] {
      assert p + s == s;
    } else {
      var ps := p + s;
      assert ps[0] == p[0];
      assert ps[1..] == p[1..] + s;
      UnquotePlainHead(ps);
      UnquoteKeepsPlainPrefix(p[1..], s);
      assert p == [p[0]] + p[1..];
    }
  }

  /** Characters `quote` leaves alone: letters, digits, `_ . - ~` and `/`. */
  predicate IsUnreserved(c: char) {
    'a' <= c <= 'z' || 'A' <= c <= 'Z' || '0' <= c <= '9'
    || c == '_' || c == '.' || c == '-' || c == '~' || c == '/'
  }

  predicate IsAsciiText(s: string) {
    forall i :: 0 <= i < |s| ==> s[i] as int < 128
  }

  /** The escape `%XY` of one ASCII character. */
  function Escape(c: char): (e: string)
    requires c as int < 128
    ensures StartsWithAsciiEscape(e)
  {
    ['%', HexDigit(c as int / 16), HexDigit(c as int % 16)]
  }

  /** Percent-encoding of ASCII text: every character outside the
      unreserved set is written as its escape. */
  function Quote(s: string): (r: string)
    requires IsAsciiText(s)
  {
    if s == [] then []
    else
      var head := if IsUnreserved(s[0]) then [s[0]] else Escape(s[0]);
      head + Quote(s[1..])
  }

  /** Decoding one escape and then the rest. */
  lemma UnquoteEscape(c: char, rest: string)
    requires c as int < 128
    ensures Unquote(Escape(c) + rest) == [c] + Unquote(rest)
  {
    var e := Escape(c) + rest;
    assert e[..3] == Escape(c);
    assert e[3..] == rest;
  }

  /** Decoding undoes encoding on ASCII text. */
  lemma {:induction false} UnquoteQuote(s: string)
    requires IsAsciiText(s)
    ensures Unquote(Quote(s)) == s
  {
    if s != [] {
      UnquoteQuote(s[1..]);
      if IsUnreserved(s[0]) {
        assert Quote(s) == [s[0]] + Quote(s[1..]);
      } else {
        UnquoteEscape(s[0], Quote(s[1..]));
      }
    }
  }
}

=== FILE: publisher.dfy ===
/** The published state (`server_state`): the current event and the history
    of accepted events, newest first, at most ten of them. */
module Publisher {
  import opened Outcomes
  import opened Text

  /** `"info"` is the idle start-up entry; `"preview"` is defined but nothing produces it. */
  datatype Kind = Info | Playing | Preview

  /** One published entry. `artworkEpoch` is the `artwork_ts` seconds stamp
      the page uses to reload the cover image. */
  datatype Event = Event(
    artist: string,
    title: string,
    source: Option<string>,
    status: string,
    timestamp: string,
    kind: Kind,
    hasArtwork: bool,
    artworkEpoch: int)

  /** The entry shown before anything has been detected. */
  const Idle: Event := Event("-", "Waiting for playback...", None, "Ready", "", Info, false, 0)

  const Capacity: nat := 10

  datatype Published = Published(current: Event, history: seq<Event>)

  const Initial: Published := Published(Idle, [])

  /** What the publisher keeps true: the history is within capacity, it is
      empty only while the idle entry is current, and otherwise its head is
      the current event. */
  predicate Consistent(p: Published) {
    && |p.history| <= Capacity
    && (p.history == [] ==> p.current == Idle)
    && (p.history != [] ==> p.current == p.history[0])
  }

  /** The source-display policy: the literal `"explorer"` in any letter case
      marks a local file load and is hidden; anything else is shown verbatim. */
  function DisplaySource(raw: string): (r: Option<string>)
    ensures r.None? <==> Lower(raw) == "explorer"
    ensures r.Some? ==> r.value == raw
  {
    if Lower(raw) == "explorer" then None else Some(raw)
  }

  /** `Lower(raw)` is `"explorer"` exactly when `raw` spells "explorer" with
      each letter in either case. */
  lemma ExplorerInAnyCase(raw: string)
    ensures Lower(raw) == "explorer" <==>
      |raw| == 8 && forall i :: 0 <= i < 8 ==> raw[i] == "explorer"[i] || raw[i] == "EXPLORER"[i]
  {
    var lo := "explorer";
    var up := "EXPLORER";
    if |raw| == 8 {
      forall i | 0 <= i < 8
        ensures LowerChar(raw[i]) == lo[i] <==> raw[i] == lo[i] || raw[i] == up[i]
      {
        assert up[i] as int == lo[i] as int - 32;
      }
      if Lower(raw) == lo {
        forall i | 0 <= i < 8 ensures raw[i] == lo[i] || raw[i] == up[i] {
          assert Lower(raw)[i] == LowerChar(raw[i]);
        }
      }
      if forall i :: 0 <= i < 8 ==> raw[i] == lo[i] || raw[i] == up[i] {
        assert forall i :: 0 <= i < 8 ==> Lower(raw)[i] == lo[i];
      }
    }
  }

  /** A local-file load is hidden whatever its capitalisation; a streaming
      service is shown as reported. */
  lemma DisplaySourceExamples()
    ensures DisplaySource("Explorer") == None
    ensures DisplaySource("EXPLORER") == None
    ensures DisplaySource("Spotify") == Some("Spotify")
    ensures DisplaySource("explorer2") == Some("explorer2")
  {
    assert Lower("Explorer") == "explorer";
    assert Lower("EXPLORER") == "explorer";
    assert |Lower("Spotify")| != 8;
    assert |Lower("explorer2")| != 8;
  }

  /** The event built for an accepted detection. */
  function Announce(artist: string, title: string, rawSource: string,
                    timestamp: string, hasArtwork: bool, epoch: int): (e: Event)
    ensures e.kind == Playing && e.status == "Playing"
    ensures e.source.None? <==> Lower(rawSource) == "explorer"
    ensures e.source.Some? ==> e.source.value == rawSource
  {
    Event(artist, title, DisplaySource(rawSource), "Playing", timestamp, Playing, hasArtwork, epoch)
  }

  /** Publishing `e`: it becomes current and the head of the history; the
      rest of the history is the old one, minus its oldest entry when the
      history would otherwise grow past capacity. */
  function Publish(p: Published, e: Event): (r: Published)
    ensures r.current == e && r.history != [] && r.history[0] == e
    ensures |p.history| < Capacity ==> r.history[1..] == p.history
    ensures |p.history| >= Capacity ==> |r.history| == |p.history| && r.history[1..] == p.history[..|p.history| - 1]
  {
    var h := [e] + p.history;
    var h' := if |h| > Capacity then h[..|h| - 1] else h;
    assert h'[1..] == (if |h| > Capacity then p.history[..|p.history| - 1] else p.history);
    Published(e, h')
  }

  /** Publishing keeps the state consistent. */
  lemma PublishKeepsConsistent(p: Published, e: Event)
    requires Consistent(p)
    ensures Consistent(Publish(p, e))
  {
  }

  /** Publishing a run of events, oldest first. */
  function PublishAll(p: Published, es: seq<Event>): Published
    decreases |es|
  {
    if es == [] then p else PublishAll(Publish(p, es[0]), es[1..])
  }

  function Reverse(es: seq<Event>): (r: seq<Event>)
    ensures |r| == |es|
    ensures forall i :: 0 <= i < |es| ==> r[i] == es[|es| - 1 - i]
  {
    if es == [] then [] else Reverse(es[1..]) + [es[0]]
  }

  lemma ReverseCons(es: seq<Event>, h: seq<Event>)
    requires es != []
    ensures Reverse(es) + h == Reverse(es[1..]) + ([es[0]] + h)
  {
  }

  /** The first `Capacity` entries of `h`. */
  function Newest(h: seq<Event>): seq<Event> {
    if |h| <= Capacity then h else h[..Capacity]
  }

  /** One publication as a list operation: prepend, then keep the newest ten. */
  lemma PublishPrepends(p: Published, e: Event)
    requires |p.history| <= Capacity
    ensures Publish(p, e).history == Newest([e] + p.history)
  {
    if |p.history| == Capacity {
      assert ([e] + p.history)[..Capacity] == [e] + p.history[..Capacity - 1];
    }
  }

  /** After publishing `es` in order, the history is the new events, newest
      first, followed by the old history, cut to the ten most recent: the
      oldest entries are the ones dropped. */
  lemma {:induction false} PublishAllHistory(p: Published, es: seq<Event>)
    requires |p.history| <= Capacity
    ensures PublishAll(p, es).history == Newest(Reverse(es) + p.history)
    decreases |es|
  {
    if es != [] {
      var q := Publish(p, es[0]);
      PublishPrepends(p, es[0]);
      PublishAllHistory(q, es[1..]);
      var rs := Reverse(es[1..]);
      NewestAbsorbs(rs, [es[0]] + p.history);
      ReverseCons(es, p.history);
    }
  }

  /** Publishing any run of events keeps the state consistent, and a
      nonempty run leaves its last event current. */
  lemma {:induction false} PublishAllConsistent(p: Published, es: seq<Event>)
    requires Consistent(p)
    ensures Consistent(PublishAll(p, es))
    ensures es != [] ==> PublishAll(p, es).current == es[|es| - 1]
    decreases |es|
  {
    if es != [] {
      PublishKeepsConsistent(p, es[0]);
      PublishAllConsistent(Publish(p, es[0]), es[1..]);
    }
  }

  /** Truncating the tail before prepending does not change the newest ten. */
  lemma NewestAbsorbs(a: seq<Event>, b: seq<Event>)
    ensures Newest(a + Newest(b)) == Newest(a + b)
  {
    if |b| > Capacity {
      if |a| >= Capacity {
        assert (a + Newest(b))[..Capacity] == a[..Capacity] == (a + b)[..Capacity];
      } else {
        assert (a + Newest(b))[..Capacity] == (a + b)[..Capacity];
      }
    }
  }

  /** Eleven events published from the initial state leave exactly the last
      ten, newest first: the first event has been dropped. */
  lemma ElevenEvents(es: seq<Event>)
    requires |es| == 11
    ensures |PublishAll(Initial, es).history| == 10
    ensures PublishAll(Initial, es).history == Reverse(es[1..])
  {
    PublishAllHistory(Initial, es);
    assert Reverse(es) + Initial.history == Reverse(es);
    assert Reverse(es)[..Capacity] == Reverse(es[1..]);
  }
}

=== FILE: snapshots.dfy ===
/** `PlaybackMonitor.get_snapshot` and the row diff of the polling loop: a
    snapshot is the dictionary from `rowid` to the row's collection and
    payload, built from the rows of the watched collection in fetch order. */
module Snapshots {
  import opened TokenScan

  /** The one collection the monitor watches. */
  const TargetCollection: string := "historySessionItems"

  /** A fetched row of `database2`. */
  datatype Row = Row(rowid: int, collection: string, data: seq<byte>)

  /** The value a snapshot keeps per `rowid`. */
  datatype Record = Record(collection: string, data: seq<byte>)

  /** A dictionary in insertion order: `order` lists each key once, in the
      order it was first inserted; `rows` holds the current values. */
  datatype Snapshot = Snapshot(order: seq<int>, rows: map<int, Record>)

  const EmptySnapshot: Snapshot := Snapshot([], map[])

  /** `order` lists exactly the keys of `rows`, each once. */
  ghost predicate Valid(s: Snapshot) {
    && (forall i, j :: 0 <= i < j < |s.order| ==> s.order[i] != s.order[j])
    && (forall id :: id in s.order <==> id in s.rows)
  }

  /** `snapshot[rowid] = {...}` on one row: a new key goes to the end; an
      existing key keeps its place and takes the new value. */
  function Insert(s: Snapshot, r: Row): (t: Snapshot)
    requires Valid(s)
    ensures Valid(t)
    ensures r.rowid in t.rows && t.rows[r.rowid] == Record(r.collection, r.data)
    ensures forall id :: id != r.rowid ==> (id in t.rows <==> id in s.rows)
    ensures forall id :: id in s.rows && id != r.rowid ==> t.rows[id] == s.rows[id]
    ensures r.rowid in s.rows ==> t.order == s.order
    ensures r.rowid !in s.rows ==> t.order == s.order + [r.rowid]
  {
    var rows := s.rows[r.rowid := Record(r.collection, r.data)];
    if r.rowid in s.rows then Snapshot(s.order, rows)
    else Snapshot(s.order + [r.rowid], rows)
  }

  /** Only the watched collection is selected. */
  predicate Selected(r: Row) {
    r.collection == TargetCollection
  }

  /** The snapshot of a fetch: the selected rows inserted in fetch order. */
  function FromRows(rows: seq<Row>): (s: Snapshot)
    ensures Valid(s)
    ensures |s.order| <= |rows|
    decreases |rows|
  {
    if rows == [] then EmptySnapshot
    else
      var before := FromRows(rows[..|rows| - 1]);
      var r := rows[|rows| - 1];
      if Selected(r) then Insert(before, r) else before
  }

  /** The row `i` is the last selected row with its `rowid`. */
  ghost predicate LastRowFor(rows: seq<Row>, id: int, i: nat) {
    && i < |rows| && Selected(rows[i]) && rows[i].rowid == id
    && forall j :: i < j < |rows| ==> !Selected(rows[j]) || rows[j].rowid != id
  }

  /** A snapshot holds exactly the `rowid`s of the selected rows, each with
      the collection and payload of its last selected row. */
  lemma {:induction false} FromRowsContents(rows: seq<Row>, id: int)
    ensures id in FromRows(rows).rows <==> exists i :: 0 <= i < |rows| && Selected(rows[i]) && rows[i].rowid == id
    ensures forall i: nat :: LastRowFor(rows, id, i) ==>
      FromRows(rows).rows[id] == Record(rows[i].collection, rows[i].data)
    decreases |rows|
  {
    if rows != [] {
      var init := rows[..|rows| - 1];
      FromRowsContents(init, id);
      assert forall j :: 0 <= j < |init| ==> init[j] == rows[j];
      forall i: nat | LastRowFor(rows, id, i)
        ensures FromRows(rows).rows[id] == Record(rows[i].collection, rows[i].data)
      {
        if i < |init| {
          assert LastRowFor(init, id, i);
        }
      }
    }
  }

  /** A fetch with no selected row gives the empty snapshot. */
  lemma {:induction false} NothingSelected(rows: seq<Row>)
    requires forall i :: 0 <= i < |rows| ==> !Selected(rows[i])
    ensures FromRows(rows) == EmptySnapshot
    decreases |rows|
  {
    if rows != [] {
      NothingSelected(rows[..|rows| - 1]);
    }
  }

  /** The keys of `order` that `seen` does not hold, in order: the rows the
      loop treats as new. */
  function Unseen(order: seq<int>, seen: map<int, Record>): (r: seq<int>)
    ensures |r| <= |order|
    ensures forall id :: id in r <==> id in order && id !in seen
  {
    if order == [] then []
    else
      var rest := Unseen(order[1..], seen);
      assert forall id :: id in order <==> id == order[0] || id in order[1..];
      if order[0] in seen then rest else [order[0]] + rest
  }

  /** The diff keeps order: the new rows of a concatenation are the new rows
      of each part, one after the other. */
  lemma {:induction false} UnseenAppend(a: seq<int>, b: seq<int>, seen: map<int, Record>)
    ensures Unseen(a + b, seen) == Unseen(a, seen) + Unseen(b, seen)
  {
    if a != [] {
      assert (a + b)[1..] == a[1..] + b;
      UnseenAppend(a[1..], b, seen);
    } else {
      assert a + b == b;
    }
  }

  /** Nothing is new when every key has been seen. */
  lemma {:induction false} UnseenAllSeen(order: seq<int>, seen: map<int, Record>)
    requires forall i :: 0 <= i < |order| ==> order[i] in seen
    ensures Unseen(order, seen) == []
  {
    if order != [] {
      UnseenAllSeen(order[1..], seen);
    }
  }

  /** Against nothing seen, every key is new, in order. */
  lemma {:induction false} UnseenNothingSeen(order: seq<int>)
    ensures Unseen(order, map[]) == order
  {
    if order != [] {
      UnseenNothingSeen(order[1..]);
    }
  }

  /** The rows of `cur` whose `rowid` the previous snapshot does not hold, in
      the order of `cur`. A row whose payload changed under an old `rowid`
      is not new. */
  function NewRows(last: Snapshot, cur: Snapshot): (ids: seq<int>)
    requires Valid(cur)
    ensures forall id :: id in ids <==> id in cur.rows && id !in last.rows
    ensures |ids| <= |cur.order|
  {
    Unseen(cur.order, last.rows)
  }

  /** When every `rowid` of `cur` was already known, whatever its payload
      now holds, there are no new rows; in particular a snapshot compared
      with itself has none. */
  lemma NoNewRowsWhenAllKnown(last: Snapshot, cur: Snapshot)
    requires Valid(cur)
    requires forall id :: id in cur.rows ==> id in last.rows
    ensures NewRows(last, cur) == []
  {
    forall i | 0 <= i < |cur.order| ensures cur.order[i] in last.rows {
      var id := cur.order[i];
      assert id in cur.order;
      assert id in cur.rows;
    }
    UnseenAllSeen(cur.order, last.rows);
  }
}

=== FILE: text.dfy ===
/** The handful of Python `str` operations the pipeline relies on, over ASCII
    text (every token the decoder can produce is ASCII). */
module Text {

  /** Python's `str.isspace` on the ASCII range: tab, line feed, vertical tab,
      form feed, carriage return, the separators 0x1C-0x1F, and space. */
  predicate IsSpace(c: char) {
    var n := c as int;
    n == 32 || 9 <= n <= 13 || 28 <= n <= 31
  }

  predicate AllSpace(s: string) {
    forall i :: 0 <= i < |s| ==> IsSpace(s[i])
  }

  /** Neither the first nor the last character is whitespace. */
  predicate NoEdgeSpace(s: string) {
    s == [] || (!IsSpace(s[0]) && !IsSpace(s[|s| - 1]))
  }

  /** Length of the whitespace prefix of `s`. */
  function LeadingSpace(s: string): (n: nat)
    ensures n <= |s|
    ensures forall i :: 0 <= i < n ==> IsSpace(s[i])
    ensures n == |s| || !IsSpace(s[n])
  {
    if s == [] || !IsSpace(s[0]) then 0 else LeadingSpace(s[1..]) + 1
  }

  /** Length of the whitespace suffix of `s`. */
  function TrailingSpace(s: string): (n: nat)
    ensures n <= |s|
    ensures forall i :: |s| - n <= i < |s| ==> IsSpace(s[i])
    ensures n == |s| || !IsSpace(s[|s| - n - 1])
  {
    if s == [] || !IsSpace(s[|s| - 1]) then 0 else TrailingSpace(s[..|s| - 1]) + 1
  }

  /** Python's `str.strip()` without arguments. */
  function Strip(s: string): (r: string)
    ensures |r| <= |s|
    ensures NoEdgeSpace(r)
  {
    var rest := s[LeadingSpace(s)..];
    rest[..|rest| - TrailingSpace(rest)]
  }

  /** `Strip` removes a whitespace prefix and a whitespace suffix and nothing
      else: what remains is a contiguous piece of `s` that starts at the
      first non-whitespace character, and everything cut off is whitespace. */
  lemma StripRemovesOnlyEdges(s: string)
    ensures var a := LeadingSpace(s);
      && a + |Strip(s)| <= |s|
      && Strip(s) == s[a..a + |Strip(s)|]
      && AllSpace(s[..a])
      && AllSpace(s[a + |Strip(s)|..])
  {
    var a := LeadingSpace(s);
    var rest := s[a..];
    var n := TrailingSpace(rest);
    var m := |rest| - n;
    assert Strip(s) == rest[..m];
    assert rest[..m] == s[a..a + m];
    forall i | 0 <= i < a ensures IsSpace(s[..a][i]) {
      assert s[..a][i] == s[i];
    }
    assert s[a + m..] == rest[m..];
  }

  /** Stripping text that has no whitespace at its ends changes nothing. */
  lemma StripKeepsTrimmed(s: string)
    requires NoEdgeSpace(s)
    ensures Strip(s) == s
  {
    if s != [] {
      assert LeadingSpace(s) == 0;
      assert TrailingSpace(s) == 0;
    }
  }

  /** Python's `str.lower()` on one ASCII character. */
  function LowerChar(c: char): char {
    if 'A' <= c <= 'Z' then (c as int + 32) as char else c
  }

  /** Python's `str.lower()` on ASCII text. */
  function Lower(s: string): string {
    seq(|s|, i requires 0 <= i < |s| => LowerChar(s[i]))
  }

  /** Python's `str.startswith`. */
  predicate StartsWith(s: string, prefix: string) {
    |prefix| <= |s| && s[..|prefix|] == prefix
  }

  /** Python's `x in s` on strings: `x` occurs in `s` as a contiguous piece. */
  ghost predicate Contains(s: string, x: string) {
    exists i :: 0 <= i <= |s| && StartsWith(s[i..], x)
  }

  /** Python's `str.replace` of one character by another. */
  function ReplaceChar(s: string, from: char, to: char): string {
    seq(|s|, i requires 0 <= i < |s| => if s[i] == from then to else s[i])
  }
}

=== FILE: token_scan.dfy ===
/** The token scan both blob decoders start with: `re.findall` of a character
    class over the raw blob, each match decoded, stripped, and kept only when
    longer than one character. */
module TokenScan {
  import opened Text

  newtype byte = x: int | 0 <= x < 256

  /** `TrackMode` is the class of `parse_blob`; `LocationMode` is the wider
      class of `parse_blob_for_path`. */
  datatype Mode = TrackMode | LocationMode

  /** The punctuation of the class of `parse_blob`: `_ . - ( ) & ' , [ ] ! ?` */
  predicate IsTrackPunctuation(c: char) {
    c == '_' || c == '.' || c == '-' || c == '(' || c == ')' || c == '&'
    || c == '\'' || c == ',' || c == '[' || c == ']' || c == '!' || c == '?'
  }

  /** The punctuation `parse_blob_for_path` adds: `\ / : % +` */
  predicate IsLocationPunctuation(c: char) {
    c == '\\' || c == '/' || c == ':' || c == '%' || c == '+'
  }

  function Char(b: byte): char {
    (b as int) as char
  }

  predicate IsAsciiAlnum(c: char) {
    'a' <= c <= 'z' || 'A' <= c <= 'Z' || '0' <= c <= '9'
  }

  /** `\s` in a bytes pattern: space, tab, line feed, vertical tab, form feed, carriage return. */
  predicate IsPatternSpace(c: char) {
    c == ' ' || '\t' <= c <= '\r'
  }

  /** The allow-listed character class of each decoding mode. */
  predicate Allowed(mode: Mode, c: char) {
    || IsAsciiAlnum(c)
    || IsPatternSpace(c)
    || IsTrackPunctuation(c)
    || (mode == LocationMode && IsLocationPunctuation(c))
  }

  predicate InClass(mode: Mode, b: byte) {
    Allowed(mode, Char(b))
  }

  /** Every allowed character is ASCII. */
  lemma AllowedIsAscii(mode: Mode, c: char)
    requires Allowed(mode, c)
    ensures c as int < 128
  {
  }

  predicate IsAscii(bs: seq<byte>) {
    forall i :: 0 <= i < |bs| ==> bs[i] < 128
  }

  /** UTF-8 decoding (invalid sequences dropped) of ASCII bytes: one character per byte. */
  function Decode(bs: seq<byte>): (s: string)
    requires IsAscii(bs)
  {
    seq(|bs|, i requires 0 <= i < |bs| => Char(bs[i]))
  }

  /** The half-open byte range `[start, end)` of one match. */
  datatype Span = Span(start: nat, end: nat)

  /** `sp` is a match of the pattern `[class]+`: a non-empty run of class bytes
      that can be extended neither to the left nor to the right. */
  ghost predicate IsMaximalRun(buf: seq<byte>, mode: Mode, sp: Span) {
    && sp.start < sp.end <= |buf|
    && (forall k :: sp.start <= k < sp.end ==> InClass(mode, buf[k]))
    && (sp.start == 0 || !InClass(mode, buf[sp.start - 1]))
    && (sp.end == |buf| || !InClass(mode, buf[sp.end]))
  }

  /** End of the run of class bytes that starts at `i`. */
  function RunEnd(buf: seq<byte>, mode: Mode, i: nat): (e: nat)
    requires i <= |buf|
    ensures i <= e <= |buf|
    ensures forall k :: i <= k < e ==> InClass(mode, buf[k])
    ensures e == |buf| || !InClass(mode, buf[e])
    decreases |buf| - i
  {
    if i == |buf| || !InClass(mode, buf[i]) then i else RunEnd(buf, mode, i + 1)
  }

  /** Every character of `s` is in the mode's class. */
  predicate AllAllowed(mode: Mode, s: string) {
    forall j :: 0 <= j < |s| ==> Allowed(mode, s[j])
  }

  /** The bytes of a run of class bytes are ASCII, and decode to class characters. */
  lemma RunDecodes(buf: seq<byte>, mode: Mode, sp: Span)
    requires sp.start <= sp.end <= |buf|
    requires forall k :: sp.start <= k < sp.end ==> InClass(mode, buf[k])
    ensures IsAscii(buf[sp.start..sp.end])
    ensures AllAllowed(mode, Decode(buf[sp.start..sp.end]))
  {
    var bs := buf[sp.start..sp.end];
    forall k | 0 <= k < |bs| ensures bs[k] < 128 && InClass(mode, bs[k]) {
      assert bs[k] == buf[sp.start + k];
      AllowedIsAscii(mode, Char(bs[k]));
    }
  }

  /** Stripping removes characters and never adds any. */
  lemma StripKeepsAllowed(mode: Mode, s: string)
    requires AllAllowed(mode, s)
    ensures AllAllowed(mode, Strip(s))
  {
    var t := Strip(s);
    var a := LeadingSpace(s);
    StripRemovesOnlyEdges(s);
    forall j | 0 <= j < |t| ensures Allowed(mode, t[j]) {
      assert t[j] == s[a + j];
    }
  }

  /** The text a match contributes: decoded and stripped. */
  function MatchText(buf: seq<byte>, mode: Mode, sp: Span): (t: string)
    requires sp.start <= sp.end <= |buf|
    requires forall k :: sp.start <= k < sp.end ==> InClass(mode, buf[k])
    ensures NoEdgeSpace(t)
    ensures AllAllowed(mode, t)
  {
    RunDecodes(buf, mode, sp);
    var d := Decode(buf[sp.start..sp.end]);
    StripKeepsAllowed(mode, d);
    Strip(d)
  }

  /** The facts `MatchesFrom` promises about its result `r`: maximal runs,
      all at or after `i`, disjoint and increasing. */
  ghost predicate ScannedFrom(buf: seq<byte>, mode: Mode, i: nat, r: seq<Span>) {
    && (forall k :: 0 <= k < |r| ==> IsMaximalRun(buf, mode, r[k]) && i <= r[k].start)
    && (forall k, l :: 0 <= k < l < |r| ==> r[k].end < r[l].start)
  }

  /** A run in front of a scan that starts after it keeps the scan well formed. */
  lemma ScannedCons(buf: seq<byte>, mode: Mode, i: nat, sp: Span, j: nat, rest: seq<Span>)
    requires IsMaximalRun(buf, mode, sp) && i <= sp.start && sp.end < j
    requires ScannedFrom(buf, mode, j, rest)
    ensures ScannedFrom(buf, mode, i, [sp] + rest)
  {
    var r := [sp] + rest;
    forall k, l | 0 <= k < l < |r| ensures r[k].end < r[l].start {
      if k == 0 {
        assert r[l] == rest[l - 1];
      } else {
        assert r[k] == rest[k - 1] && r[l] == rest[l - 1];
      }
    }
  }

  /** The matches of `re.findall(b'[class]+', buf)` that start at or after `i`,
      in buffer order. */
  function MatchesFrom(buf: seq<byte>, mode: Mode, i: nat): (r: seq<Span>)
    requires i <= |buf|
    requires i == 0 || !InClass(mode, buf[i - 1])
    ensures ScannedFrom(buf, mode, i, r)
    decreases |buf| - i
  {
    if i == |buf| then []
    else if !InClass(mode, buf[i]) then MatchesFrom(buf, mode, i + 1)
    else
      var e := RunEnd(buf, mode, i);
      var rest := if e == |buf| then [] else MatchesFrom(buf, mode, e + 1);
      ScannedCons(buf, mode, i, Span(i, e), e + 1, rest);
      [Span(i, e)] + rest
  }

  /** A maximal run that starts at `sp.start` ends where `RunEnd` says. */
  lemma RunEndIsMaximal(buf: seq<byte>, mode: Mode, sp: Span)
    requires IsMaximalRun(buf, mode, sp)
    ensures RunEnd(buf, mode, sp.start) == sp.end
  {
  }

  /** The scan misses nothing: every maximal run at or after `i` is a match. */
  lemma {:induction false} MatchesFromComplete(buf: seq<byte>, mode: Mode, i: nat, sp: Span)
    requires i <= |buf|
    requires i == 0 || !InClass(mode, buf[i - 1])
    requires IsMaximalRun(buf, mode, sp) && i <= sp.start
    ensures sp in MatchesFrom(buf, mode, i)
    decreases |buf| - i
  {
    if !InClass(mode, buf[i]) {
      assert sp.start != i;
      MatchesFromComplete(buf, mode, i + 1, sp);
    } else {
      var e := RunEnd(buf, mode, i);
      if sp.start == i {
        RunEndIsMaximal(buf, mode, sp);
      } else {
        assert sp.start > e;
        MatchesFromComplete(buf, mode, e + 1, sp);
      }
    }
  }

  /** All matches of the pattern in `buf`, in buffer order. */
  function Matches(buf: seq<byte>, mode: Mode): (r: seq<Span>)
    ensures ScannedFrom(buf, mode, 0, r)
  {
    MatchesFrom(buf, mode, 0)
  }

  /** `Matches` is exactly the set of maximal runs. */
  lemma MatchesAreMaximalRuns(buf: seq<byte>, mode: Mode, sp: Span)
    ensures sp in Matches(buf, mode) <==> IsMaximalRun(buf, mode, sp)
  {
    if IsMaximalRun(buf, mode, sp) {
      MatchesFromComplete(buf, mode, 0, sp);
    }
  }

  /** One decoded match: the run it came from and its stripped text. */
  datatype Token = Token(run: Span, text: string)

  /** Runs strictly increasing along the sequence. */
  predicate Increasing(ts: seq<Token>) {
    forall k, l :: 0 <= k < l < |ts| ==> ts[k].run.end < ts[l].run.start
  }

  /** Every match, decoded and stripped. */
  function Located(buf: seq<byte>, mode: Mode): (r: seq<Token>)
    ensures |r| == |Matches(buf, mode)|
    ensures forall k :: 0 <= k < |r| ==>
      r[k].run == Matches(buf, mode)[k] && r[k].text == MatchText(buf, mode, r[k].run)
    ensures Increasing(r)
  {
    var m := Matches(buf, mode);
    seq(|m|, k requires 0 <= k < |m| => Token(m[k], MatchText(buf, mode, m[k])))
  }

  /** `if len(d) > 1: decoded.append(d)`: the tokens longer than one
      character, in their original order. */
  function KeepLong(ts: seq<Token>): (r: seq<Token>)
    ensures forall k :: 0 <= k < |r| ==> r[k] in ts && |r[k].text| > 1
    ensures forall k :: 0 <= k < |ts| && |ts[k].text| > 1 ==> ts[k] in r
  {
    if ts == [] then []
    else if |ts[0].text| > 1 then [ts[0]] + KeepLong(ts[1..])
    else KeepLong(ts[1..])
  }

  /** The first run of an increasing sequence comes before every later one. */
  lemma HeadComesFirst(ts: seq<Token>)
    requires ts != [] && Increasing(ts)
    ensures forall t :: t in ts[1..] ==> ts[0].run.end < t.run.start
  {
    forall t | t in ts[1..] ensures ts[0].run.end < t.run.start {
      var j :| 0 <= j < |ts[1..]| && ts[1..][j] == t;
      assert ts[j + 1] == t;
    }
  }

  /** A run that comes before every run of an increasing sequence can be put in front. */
  lemma ConsIncreasing(t: Token, rest: seq<Token>)
    requires Increasing(rest)
    requires forall k :: 0 <= k < |rest| ==> t.run.end < rest[k].run.start
    ensures Increasing([t] + rest)
  {
    var r := [t] + rest;
    forall k, l | 0 <= k < l < |r| ensures r[k].run.end < r[l].run.start {
      assert r[l] == rest[l - 1];
      if k > 0 {
        assert r[k] == rest[k - 1];
      }
    }
  }

  /** Filtering keeps the order of the runs. */
  lemma {:induction false} KeepLongIncreasing(ts: seq<Token>)
    requires Increasing(ts)
    ensures Increasing(KeepLong(ts))
  {
    if ts != [] {
      var rest := KeepLong(ts[1..]);
      KeepLongIncreasing(ts[1..]);
      if |ts[0].text| > 1 {
        HeadComesFirst(ts);
        assert forall k :: 0 <= k < |rest| ==> rest[k] in ts[1..];
        ConsIncreasing(ts[0], rest);
      }
    }
  }

  /** The kept tokens of one blob with the runs they came from. */
  function Scan(buf: seq<byte>, mode: Mode): (r: seq<Token>)
    ensures Increasing(r)
    ensures forall t :: t in r <==>
      IsMaximalRun(buf, mode, t.run) && t.text == MatchText(buf, mode, t.run) && |t.text| > 1
  {
    var r := KeepLong(Located(buf, mode));
    KeepLongIncreasing(Located(buf, mode));
    forall t ensures t in r <==>
      IsMaximalRun(buf, mode, t.run) && t.text == MatchText(buf, mode, t.run) && |t.text| > 1
    {
      MatchesAreMaximalRuns(buf, mode, t.run);
      var loc := Located(buf, mode);
      if t in loc {
        var k :| 0 <= k < |loc| && loc[k] == t;
      }
      if IsMaximalRun(buf, mode, t.run) && t.text == MatchText(buf, mode, t.run) {
        var k :| 0 <= k < |Matches(buf, mode)| && Matches(buf, mode)[k] == t.run;
        assert loc[k] == t;
      }
    }
    r
  }

  /** The list `decoded` the source builds: the stripped texts of the matches
      that are longer than one character, in buffer order. Every token has no
      whitespace at either end and holds only characters of the mode's class. */
  function Tokens(buf: seq<byte>, mode: Mode): (toks: seq<string>)
    ensures |toks| == |Scan(buf, mode)|
    ensures forall k :: 0 <= k < |toks| ==> toks[k] == Scan(buf, mode)[k].text
    ensures forall k :: 0 <= k < |toks| ==> |toks[k]| > 1 && NoEdgeSpace(toks[k]) && AllAllowed(mode, toks[k])
  {
    var s := Scan(buf, mode);
    assert forall k :: 0 <= k < |s| ==> s[k] in s;
    seq(|s|, k requires 0 <= k < |s| => s[k].text)
  }
}
